=== FILE: README.md ===
# wpkickstart plugin core, modelled in Dafny

This project models the algorithmic core of the wpkickstart WordPress plugin
boilerplate:

- **The class-name → file resolvers** of both App variants.
  - `app/class-app.php` splits a namespaced class name on `\`. It derives the
    canonical file name `class-<slug>.php` from the last segment.
  - It then looks for that file in order:
    1. `app/`;
    2. `components/<slug>/`;
    3. `services/<slug>/`, then `features/<slug>/`;
    4. a recursive search of `app`, `components` and `services`.
  - Every candidate must pass `is_our_file`.
  - `includes/class-app.php` first rejects class names outside the plugin's
    namespace. It then tries `includes/`, `components/<parts[2]>/` and
    `services/<parts[2]>/`, each of which must resolve on the include path.
  - Its component and service builders throw when the name has no third
    segment.
- **The App record** that both variants share:
  - the validated constructor;
  - `header`, `url`, `autoload_dir` and `autoload_class_file`.
- **The lifecycle broadcast.** `autocall( $call )` invokes `$call` on every
  property that is an object defining that method, in property order.
  - The `app/` variant's `deactivate_plugin` broadcasts `deactivate_plugin`
    the same way.
  - The `includes/` variant's `deactivate_plugin` does nothing.
- **The `kickstart` command's line removal** (`services/replace-cli`). Every
  walked path is filtered by four tests:
  1. it is not a directory;
  2. it is one of the plugin's files;
  3. it mentions an extension;
  4. its path does not contain `vendor/`, ignoring case.

  Each configured line, together with its newline, is then removed from the
  file's content with `str_replace`.

The PHP built-ins these rely on are modelled in `PhpStrings`:
- ASCII `strtolower`, single-character `str_replace` and `explode`;
- `strpos` and `stristr`, with PHP truthiness (`''` and `'0'` are false);
- `trim`, and WordPress's `trailingslashit`;
- Unix `dirname` and `basename`.

`str_replace( $pat, '', $s )` is modelled in `Removal` as a left-to-right,
non-overlapping removal. The file system is an input:
- the set of existing paths stands for `file_exists` and
  `stream_resolve_include_path`;
- a map from directory to the sequence of paths its recursive iterator yields
  stands for directory iteration;
- the values WordPress computes about the plugin file are a record.

Some behaviours of the code that a reader might not expect:
- **Component directory segment.** The `app/` resolver uses the last
  segment's slug for the component directory. The `includes/` resolver uses
  the third segment (`$parts[2]`).
- **Extensions are a substring test.** The extension filter is `stristr`, not
  a suffix test, so `composer.json` passes because it contains `.js`.
- **The ignore filter is a substring test too.** It looks for `vendor/`
  anywhere in the path, ignoring case, so `/p/myvendor/a.php` and
  `/p/VENDOR/x.php` are skipped, although neither lies in a `vendor/`
  directory.
- **Ownership check.** The line-removal filter also requires `is_our_file`.
- **Deactivation.** The `includes/` variant's `deactivate_plugin` broadcasts
  nothing.
- **Removal policy.** Only the one configuration present is modelled: `vendor`
  is ignored, and each rule is removed only together with a trailing newline.

Modules, one per source component:
- `Wrappers` (Option/Result);
- `PhpStrings`;
- `Removal`;
- `Plugin`, the members the two App variants share;
- `AppLoader`, the `app/` resolver;
- `IncludesLoader`, the `includes/` resolver;
- `Lifecycle`;
- `ReplaceCli`.

## Model

| member | source | states |
|---|---|---|
| `Plugin.Construct` | app/class-app.php:91-118 | construction fails exactly for a plugin file that is `''`, `'0'` or unresolvable, with that file in the error; otherwise every field is the plugin file or what the host reports about it |
| `Plugin.ConstructedFileValid` | includes/class-app.php:93-104 | a constructed App's plugin file is non-empty, not `'0'`, and resolvable |
| `Plugin.Header` | app/class-app.php:382-386 | an unknown header is `''`; a known one is its raw value with only trimmable characters removed from the two ends, and the result starts and ends with a non-trimmable character |
| `Plugin.HeaderIsTrimmed` | includes/class-app.php:296-300 | a header value needs no further trimming |
| `Plugin.Url` | app/class-app.php:493-497 | the URL is the plugin URL with exactly one trailing slash, followed by the path when it is a string other than `''` and `'0'`, and by nothing otherwise |
| `Plugin.UrlSlashInsensitive` | includes/class-app.php:399-403 | the URL does not depend on whether the stored plugin URL already ends in a slash |
| `Plugin.AutoloadDir` | app/class-app.php:344-346 | the directory is the slashed plugin path followed by the slashed sub-directory, so it ends in `/` |
| `Plugin.FirstWhere` | app/class-app.php:255-265 | the priority loop returns the first accepted position with none accepted before it, and nothing exactly when no element is accepted |
| `Plugin.ClassFileShape` | app/class-app.php:357-359 | the canonical file name is `class-`, then the last segment character by character lower-cased with `_` as `-`, then `.php`; it holds no `_` and no upper-case ASCII letter |
| `Plugin.ClassFileFolds` | includes/class-app.php:271-273 | class names whose last segments agree up to ASCII case and `_` versus `-` map to the same file, whatever the earlier segments |
| `Plugin.ClassFile` | app/class-app.php:357-359 | the canonical file name is `class-`, then as many characters as the last segment has, then `.php`; `Plugin.ClassFileShape` gives each character |
| `Plugin.PluginDir` | app/class-app.php:224 | `dirname( $this->plugin_file )`, with no contract of its own; `PhpStrings.Dirname` and its lemmas characterise it and `AppLoader.DirUnderPath` relates it to the plugin path |
| `PhpStrings.Lower` | app/class-app.php:358 | `strtolower` keeps the length and lower-cases exactly the ASCII letters A-Z |
| `PhpStrings.LowerChar` | app/class-app.php:358 | one character lower-cased: an ASCII capital A-Z becomes the letter 32 code points above it, its lower-case form, and any other character is kept |
| `PhpStrings.ReplaceChar` | app/class-app.php:358 | `str_replace` of one character keeps the length and replaces exactly the matching characters |
| `PhpStrings.Slug` | app/class-app.php:358 | the slug has the segment's length and is the segment character by character lower-cased with `_` as `-` |
| `PhpStrings.SlugShape` | app/class-app.php:241 | a slug has no `_` and no upper-case ASCII letter, and every other character of the segment survives up to case |
| `PhpStrings.Explode` | app/class-app.php:166 | `explode` on `\` yields at least one part, no part holds the separator, and joining the parts with the separator gives the input back |
| `PhpStrings.ExplodeCons` | includes/class-app.php:156 | a separator-free head followed by the separator is split off as the first part |
| `PhpStrings.ExplodeAtom` | app/class-app.php:166 | a name without a separator is a single part |
| `PhpStrings.ExplodeJoin` | app/class-app.php:166 | `explode` undoes joining whenever no part holds the separator |
| `PhpStrings.FindFrom` | includes/class-app.php:151 | a found position lies at or after the start and leaves room for the needle |
| `PhpStrings.FindFromSpec` | includes/class-app.php:151 | the scan finds the leftmost occurrence at or after its start, and finds none only when there is none there |
| `PhpStrings.IndexOf` | includes/class-app.php:151 | a position returned by `strpos` leaves room for the needle |
| `PhpStrings.IndexOfSpec` | includes/class-app.php:151 | `strpos` returns an occurrence with none before it, and `false` exactly when the needle does not occur |
| `PhpStrings.StristrSpec` | app/class-app.php:224 | `stristr` returns `false` exactly when the needle does not occur up to ASCII case, and otherwise the haystack from the first such occurrence on |
| `PhpStrings.Stristr` | app/class-app.php:224 | a `stristr` result is a suffix of the haystack; `PhpStrings.StristrSpec` says which |
| `PhpStrings.StristrTruthy` | app/class-app.php:256 | for a needle other than `''` and `'0'`, the `stristr` result is truthy exactly when the needle occurs up to ASCII case |
| `PhpStrings.StristrAtStart` | app/class-app.php:224 | a needle that starts the haystack up to case makes `stristr` return the whole haystack |
| `PhpStrings.Untrailing` | app/class-app.php:345 | `untrailingslashit` removes exactly the trailing run of `/` and `\` |
| `PhpStrings.TrailingSlashIt` | app/class-app.php:345 | `trailingslashit` replaces the trailing run of `/` and `\` by exactly one `/` |
| `PhpStrings.UntrailingFixed` | app/class-app.php:345 | a path that does not end in a separator is its own untrailing form |
| `PhpStrings.TrailingSlashItIdempotent` | includes/class-app.php:259 | `trailingslashit` is idempotent |
| `PhpStrings.TrimLeft` | app/class-app.php:384 | left trimming removes exactly a leading run of trimmable characters |
| `PhpStrings.TrimRight` | app/class-app.php:384 | right trimming removes exactly a trailing run of trimmable characters |
| `PhpStrings.Trim` | app/class-app.php:384 | the trimmed value is empty or starts and ends with a non-trimmable character |
| `PhpStrings.TrimPadded` | app/class-app.php:384 | `trim` removes only trimmable characters, and only from the two ends |
| `PhpStrings.TrimIdempotent` | includes/class-app.php:298 | trimming twice is trimming once |
| `PhpStrings.StripTrailing` | app/class-app.php:224 | stripping a trailing character removes exactly its trailing run |
| `PhpStrings.StripTrailingOthers` | app/class-app.php:224 | stripping everything after the last occurrence of a character removes exactly the run after it |
| `PhpStrings.Dirname` | app/class-app.php:224 | `dirname` is empty exactly for an empty path, is a prefix of the path unless it is `.`, ends in no `/` unless it is `/`, and is `.` for a path with no slash before its last name; with `PhpStrings.DirnameRoot` and `PhpStrings.DirnameDropsLastName` every path's result is determined |
| `PhpStrings.DirnameDropsLastName` | app/class-app.php:224 | when the part before the base name is not just slashes, the path is the parent (a non-empty prefix not ending in `/`), then one or more slashes, then the base name, then only slashes |
| `PhpStrings.DirnameRoot` | app/class-app.php:224 | `dirname` is `/` exactly for a non-empty path that is all slashes, or one whose part before the base name holds a slash and nothing else |
| `PhpStrings.DirnameOfDotSlash` | app/class-app.php:224 | example: `dirname( './x' )` is `.`, although the path holds a slash |
| `PhpStrings.LastSlashSplit` | app/class-app.php:224 | the part up to the last slash and the part after it together make up the whole path |
| `PhpStrings.AfterLastSlash` | app/class-app.php:260 | the part after the last `/` holds no `/`, ends the input, and is preceded by `/` unless it is the whole input |
| `PhpStrings.Basename` | app/class-app.php:260 | a base name holds no `/` |
| `PhpStrings.BasenameIsLastName` | app/class-app.php:260 | the base name is the last name once the trailing slashes are stripped, preceded by a slash unless it is all that is left |
| `Removal.RemoveAll` | services/replace-cli/class-replace-cli.php:99 | each removed occurrence shortens the content by exactly the pattern's length |
| `Removal.CountZeroIff` | services/replace-cli/class-replace-cli.php:99 | the removal removes nothing exactly when the pattern does not occur |
| `Removal.RemoveAllFixedIff` | services/replace-cli/class-replace-cli.php:99 | the content comes back unchanged exactly when the pattern does not occur in it |
| `Removal.OccursShift` | services/replace-cli/class-replace-cli.php:99 | an occurrence in the tail is an occurrence one position later in the whole |
| `Removal.SkipClean` | services/replace-cli/class-replace-cli.php:99 | a prefix in which no occurrence starts is copied through unchanged |
| `Removal.OccursPrefix` | services/replace-cli/class-replace-cli.php:99 | a window that ends inside a prefix reads the same in any extension of it |
| `Removal.RemoveAllIsGapConcat` | services/replace-cli/class-replace-cli.php:99 | for any leftmost split of the content into gaps glued by the pattern, the result is the gaps in order and the number of removals is the number of cuts |
| `Removal.RemoveFirstGap` | services/replace-cli/class-replace-cli.php:99 | a clean gap before an occurrence is kept and the occurrence removed |
| `Removal.CleanGapPrefix` | services/replace-cli/class-replace-cli.php:99 | no occurrence starts inside a clean gap, whatever follows |
| `Removal.Gaps` | services/replace-cli/class-replace-cli.php:99 | the gaps left behind are never empty as a list |
| `Removal.GapsSplit` | services/replace-cli/class-replace-cli.php:99 | every content has a leftmost split, namely its gaps |
| `Removal.SplitAfterMatch` | services/replace-cli/class-replace-cli.php:99 | a leading occurrence adds an empty first gap |
| `Removal.SplitAfterChar` | services/replace-cli/class-replace-cli.php:99 | a leading character at which no occurrence starts joins the first gap |
| `Removal.GapHeadClean` | services/replace-cli/class-replace-cli.php:99 | prepending a character at which no occurrence starts keeps a gap clean |
| `AppLoader.IsOurFile` | app/class-app.php:219-225 | only an existing string path can be our file |
| `AppLoader.IsOurFileIff` | app/class-app.php:219-225 | for a plugin directory other than `''` and `'0'`, our file means a string path that contains the plugin directory up to ASCII case and exists |
| `AppLoader.AppFile` | app/class-app.php:311-313 | the app candidate is the slashed plugin path, `app/`, then the canonical file name |
| `AppLoader.ComponentFile` | app/class-app.php:324-333 | the component candidate is `components/<slug>/class-<slug>.php` under the plugin path, with the slug of the last segment |
| `AppLoader.ServiceFile` | app/class-app.php:278-300 | the service lookup returns the `services` candidate if it exists, else the `features` candidate if that exists, else null; a returned path exists and is one of the two |
| `AppLoader.ServiceCandidate` | app/class-app.php:289-291 | a service candidate lies under the slashed plugin path and ends in the canonical file name |
| `AppLoader.WalkMatchIff` | app/class-app.php:256-262 | a walked path is taken exactly when it contains `.php` up to case and its base name is the canonical file name |
| `AppLoader.WalkMatch` | app/class-app.php:256-262 | the walk's two tests, with no contract of its own; `AppLoader.WalkMatchIff` characterises it |
| `AppLoader.SearchDirs` | app/class-app.php:251-266 | a found path is one the test accepts |
| `AppLoader.SearchDirsSpec` | app/class-app.php:251-266 | the search returns the first accepted path of the first root that has one after clean earlier roots; it throws for the first unopenable root after clean ones; it returns nothing exactly when every root is walked clean |
| `AppLoader.RecursiveFile` | app/class-app.php:236-267 | a found file mentions `.php` and has the canonical base name |
| `AppLoader.RootDirs` | app/class-app.php:243-249 | the roots `app`, `components` and `services` under the plugin path, in that order, with no contract of its own; `AppLoader.RecursiveFileSpec` uses it |
| `AppLoader.RecursiveFileSpec` | app/class-app.php:243-266 | the fallback over `app`, `components` and `services` returns the first match after clean roots, throws for the first root that cannot be opened once the earlier roots were walked clean, and returns nothing exactly when all three are clean |
| `AppLoader.AutoloadFromParts` | app/class-app.php:184-208 | what is loaded passes `is_our_file`; the app file wins when it is ours; the component file wins next |
| `AppLoader.FromSearch` | app/class-app.php:204-207 | after the conventions fail, the search hit is loaded exactly when it is our file; an unopenable root escapes as the iterator's exception |
| `AppLoader.AutoloadFallback` | app/class-app.php:197-207 | with the app and component files not ours, the service file is loaded if ours, and otherwise the recursive search decides |
| `AppLoader.Autoload` | app/class-app.php:163-167 | whatever `autoload` loads passes `is_our_file` |
| `AppLoader.AutoloadSources` | app/class-app.php:184-208 | a loaded file is one of the convention candidates of the exploded class name or the recursive search's hit |
| `AppLoader.SlashedPrefix` | app/class-app.php:345 | a directory not ending in a separator is a prefix of its slashed form |
| `AppLoader.PrefixIsOurs` | app/class-app.php:224 | a path starting with the plugin directory is our file exactly when it exists |
| `AppLoader.UnderPathIsOurs` | app/class-app.php:224 | under a standard plugin path, any path built under that path is our file exactly when it exists |
| `AppLoader.DirUnderPath` | app/class-app.php:344-346 | under a standard plugin path, the plugin directory is a prefix of the slashed plugin path |
| `AppLoader.StandardOursIsPresence` | app/class-app.php:219-225 | under a standard plugin path, each of the four convention paths is our file exactly when it exists |
| `AppLoader.PresenceOrder` | app/class-app.php:184-201 | when ownership is existence, the load follows existence in the order app, components, services, features |
| `AppLoader.ConventionOrder` | app/class-app.php:184-201 | under a standard plugin path, the load follows existence in the order app, components, services, features |
| `IncludesLoader.IncludeFile` | includes/class-app.php:221-223 | the include candidate is the slashed plugin path, `includes/`, then the canonical file name |
| `IncludesLoader.SegmentFile` | includes/class-app.php:198-210 | the builder throws `$parts[2] must be set.` exactly when the name has fewer than three segments; otherwise the path is the directory `<kind><slug of parts[2]>/` under the slashed plugin path, followed by `class-<slug of the last segment>.php` |
| `IncludesLoader.ComponentFile` | includes/class-app.php:235-247 | the component builder throws exactly for fewer than three segments, and otherwise gives a path under the slashed plugin path; `IncludesLoader.SegmentFile` with kind `components/` gives the exact path |
| `IncludesLoader.ServiceFile` | includes/class-app.php:198-210 | the service builder throws exactly for fewer than three segments, and otherwise gives a path under the slashed plugin path; `IncludesLoader.SegmentFile` with kind `services/` gives the exact path |
| `IncludesLoader.SegmentFileDependsOnThirdAndLast` | includes/class-app.php:235-247 | the component and service paths depend only on the third and the last segment |
| `IncludesLoader.AutoloadFromParts` | includes/class-app.php:168-186 | what is loaded resolves; an exception escapes exactly when the include file does not resolve and the name has fewer than three segments |
| `IncludesLoader.ResolutionOrder` | includes/class-app.php:168-186 | for a name with three or more segments, the first resolving candidate among include, component and service is loaded, and nothing is loaded when none resolves |
| `IncludesLoader.StrposZeroIffPrefix` | includes/class-app.php:151 | `strpos( $s, $p ) === 0` holds exactly when `$p` is a prefix of `$s` |
| `IncludesLoader.Autoload` | includes/class-app.php:148-157 | whatever `autoload` loads resolves |
| `IncludesLoader.ForeignNameIgnored` | includes/class-app.php:150-153 | a class name outside the plugin namespace loads nothing |
| `IncludesLoader.PrefixedNameParts` | includes/class-app.php:151-156 | a name inside the namespace explodes into at least three segments, the company name and the plugin name first |
| `IncludesLoader.AutoloadNeverThrows` | includes/class-app.php:148-157 | the builders' exception never escapes `autoload`, since every name that passes the guard has a third segment |
| `IncludesLoader.ThreePartsMatchAppLoader` | includes/class-app.php:235-247 | for a three-segment name, the `includes/` component path equals the `app/` variant's |
| `Lifecycle.Autocall` | app/class-app.php:474-482 | the calls made invoke the phase only on responding properties, reach every responding property, and follow property order with no property called twice |
| `Lifecycle.Responds` | app/class-app.php:476-477 | `is_object( $prop ) && method_exists( $prop, $call )`, with method names compared up to ASCII case; no contract of its own, and `Lifecycle.TraceCallsEachResponderOnce` gives its role |
| `Lifecycle.DeactivatePlugin` | app/class-app.php:505-513 | deactivation is that broadcast for `deactivate_plugin` |
| `Lifecycle.IncludesDeactivatePlugin` | includes/class-app.php:411-412 | the `includes/` deactivation makes no call at all |
| `Lifecycle.BroadcastIsTrace` | includes/class-app.php:380-388 | the reference definition of the broadcast meets the broadcast's description |
| `Lifecycle.StepCalls` | app/class-app.php:474-482 | extending a broadcast by one property calls only responding properties |
| `Lifecycle.StepCovers` | app/class-app.php:474-482 | the extension still reaches every responding property |
| `Lifecycle.StepOrdered` | app/class-app.php:474-482 | the extension keeps property order |
| `Lifecycle.Indices` | app/class-app.php:474 | the indices of a trace, position by position |
| `Lifecycle.EmptyTogether` | app/class-app.php:474-482 | two sequences with the same elements are empty together |
| `Lifecycle.IncreasingDetermined` | app/class-app.php:474-482 | two strictly increasing index sequences with the same elements are equal |
| `Lifecycle.TraceUnique` | app/class-app.php:474-482 | the properties and the phase determine the calls made |
| `Lifecycle.TraceIsBroadcast` | app/class-app.php:474-482 | the loop's calls are the reference definition's |
| `Lifecycle.TraceCallsEachResponderOnce` | app/class-app.php:475-478 | a non-responding property is never called, and a responding one is called exactly once |
| `Lifecycle.DeactivationDiffers` | app/class-app.php:505-513 | a property defining `deactivate_plugin` is called by the `app/` variant and not by the `includes/` variant |
| `ReplaceCli.AnyTruthyIff` | services/replace-cli/class-replace-cli.php:114-132 | for needles other than `''` and `'0'`, the test loop succeeds exactly when some needle occurs in the path up to ASCII case |
| `ReplaceCli.AnyTruthy` | services/replace-cli/class-replace-cli.php:115-121 | the `foreach`/`stristr` loop both tests share, with no contract of its own; `ReplaceCli.AnyTruthyIff` characterises it |
| `ReplaceCli.HasValidExtensionIff` | services/replace-cli/class-replace-cli.php:124-132 | a path has a valid extension exactly when `.php`, `.md` or `.js` occurs anywhere in it up to case |
| `ReplaceCli.HasValidExtension` | services/replace-cli/class-replace-cli.php:124-132 | `has_valid_extension`, with no contract of its own; `ReplaceCli.HasValidExtensionIff` characterises it |
| `ReplaceCli.IgnorePatterns` | services/replace-cli/class-replace-cli.php:116 | each ignored directory becomes a pattern with exactly one trailing slash |
| `ReplaceCli.IgnorePatternsValue` | services/replace-cli/class-replace-cli.php:33-35 | the configured ignore patterns are exactly `vendor/` |
| `ReplaceCli.IgnoreIff` | services/replace-cli/class-replace-cli.php:114-122 | a path is ignored exactly when `vendor/` occurs anywhere in it up to case |
| `ReplaceCli.Ignore` | services/replace-cli/class-replace-cli.php:114-122 | `ignore`, with no contract of its own; `ReplaceCli.IgnoreIff` characterises it |
| `ReplaceCli.JsonHasValidExtension` | services/replace-cli/class-replace-cli.php:27-31 | example: `composer.json` passes the extension test |
| `ReplaceCli.NestedVendorIgnored` | services/replace-cli/class-replace-cli.php:116 | example: a directory whose name merely ends in `vendor` is ignored too |
| `ReplaceCli.ApplyRules` | services/replace-cli/class-replace-cli.php:98-99 | rewriting never lengthens a file |
| `ReplaceCli.ApplyRulesFixedIff` | services/replace-cli/class-replace-cli.php:98-99 | a file is left unchanged exactly when no rule line followed by a newline occurs in it |
| `ReplaceCli.NoRuleCons` | services/replace-cli/class-replace-cli.php:98 | no rule occurs exactly when the first does not and no later one does |
| `ReplaceCli.ShortFileKept` | services/replace-cli/class-replace-cli.php:99 | a file shorter than every rule line with its newline is kept |
| `ReplaceCli.UnterminatedLineKept` | services/replace-cli/class-replace-cli.php:18-21 | example: a file that is just a configured line without its newline is kept |
| `ReplaceCli.RemoveAfterHead` | services/replace-cli/class-replace-cli.php:99 | a pattern right after a head that lacks the pattern's first character is removed, and the head kept |
| `ReplaceCli.FirstRuleLineRemoved` | services/replace-cli/class-replace-cli.php:98-99 | a short head without the first rule's first character, followed by that rule line and its newline, loses exactly that line |
| `ReplaceCli.EligibleIff` | services/replace-cli/class-replace-cli.php:80-94 | a path is rewritten exactly when it is a regular file of the tree that contains the plugin directory and an extension, and does not contain `vendor/`, all up to case |
| `ReplaceCli.Eligible` | services/replace-cli/class-replace-cli.php:80-94 | the four tests of the walk in order, with no contract of its own; `ReplaceCli.EligibleIff` characterises it |
| `ReplaceCli.Repeat` | services/replace-cli/class-replace-cli.php:96-110 | repeated rewriting never lengthens a file |
| `ReplaceCli.RewriteWalk` | services/replace-cli/class-replace-cli.php:79-111 | after the walk, each accepted file has been rewritten once per visit and every other file is unchanged, with the same set of files |
| `ReplaceCli.WalkStep` | services/replace-cli/class-replace-cli.php:79-111 | one visit keeps the account of rewrites per file |
| `ReplaceCli.RemoveLines` | services/replace-cli/class-replace-cli.php:76-112 | no file appears or disappears; an ineligible or unvisited file keeps its content; an eligible file is rewritten once per visit |
| `ReplaceCli.ForeignFileUntouched` | services/replace-cli/class-replace-cli.php:84-86 | a file outside the plugin directory is never rewritten |

## Left out

- The WordPress and PHP runtime calls are not modelled:
  - `plugin_basename`, `plugin_dir_url`, `plugin_dir_path` and `get_file_data` are foreign. Their results are the `HostInfo` input of `Plugin.Construct`.
  - `load_plugin_textdomain`, `spl_autoload_register` and `require_once` are side effects. A load outcome names the file that would be required.
- `composer_autoload` (app/class-app.php:133-141) is not modelled. It only requires `vendor/autoload.php` when that file exists.
- `version()` only calls `header( 'Version' )`. `Plugin.Header` covers it.
- `hooks()`, `run()`, `auto_call_hooks()` and `auto_call_run()` are not modelled separately. They are `Lifecycle.Autocall` with the phase `hooks` or `run`.
- `Lifecycle.Autocall` does not model the called methods' own effects. A call that changes the App's properties mid-broadcast is outside the model, so the property list is fixed for the whole broadcast.
- The constructor's exception is a `ConstructError` carrying the plugin file. The translated message text is not modelled.
- The WP-CLI glue of the replace-cli service is not modelled: `hooks`, `__construct`, `run`, `kickstart`, the `CLI_Args` dependency, the unused `since` argument and the unused `file_removals` list.
- The `error_log` dump inside the rule loop is debug output and is not modelled.
- The order and contents of a recursive directory walk are inputs: `AppLoader.Disk.walks`, and the `walk` parameter of `ReplaceCli.RemoveLines`.
  - `ReplaceCli.RemoveLines` does not model the root iterator throwing when the plugin directory cannot be opened.
  - It does not model read or write failures of `file_get_contents` and `file_put_contents`.
- Case folding is ASCII only, as `strtolower` does from PHP 8.2 on. The locale-dependent folding of earlier PHP versions is left out.
- `dirname` and `basename` use `/` as the only separator. Windows separators are left out.
- Whether a resolved path is really inside the plugin is not modelled beyond what `is_our_file` tests, which is a case-insensitive substring test.
- AppLoader.RecursiveFile: a directory missing from `Disk.walks` stands only for a search root that cannot be opened. The `UnexpectedValueException` that `RecursiveIteratorIterator` throws for a sub-directory it cannot open part-way through a walk (app/class-app.php:255) is not modelled, and neither is its effect on the search.
- ReplaceCli.RemoveLines: the same exception for a sub-directory that cannot be opened part-way through the walk (services/replace-cli/class-replace-cli.php:79) is not modelled. The walk is a complete input sequence.
- Lifecycle.Autocall: `method_exists` is also true for private and protected methods. Calling such a method from `autocall` (app/class-app.php:477-478, includes/class-app.php:383-384) throws an `Error` that ends the broadcast. The model records that call as made and continues, because `Property` does not carry method visibility.
- ReplaceCli.RemoveLines: the command calls `app()->is_our_file()`. The model takes that to be the `app/` variant's `is_our_file` (`AppLoader.IsOurFile`). The service's namespace `__YourCompanyName__\__YourPluginName__` is the `includes/` variant's, whose App defines no `is_our_file`. With that App the call would end in an undefined-method `Error`, which is not modelled.
- Plugin.Construct: the plugin file is a string. `empty()` also rejects `null`, `false`, `0` and `[]` (app/class-app.php:94), and plugin files that are not strings are not modelled.

=== FILE: app_loader.dfy ===
/** The autoloader of `app/class-app.php`: a class name is split on `\`, its
    last segment names the file, and the file is looked for in `app/`, then
    `components/<slug>/`, then `services/<slug>/` or `features/<slug>/`, then
    by a recursive search of `app`, `components` and `services`. Every
    candidate must pass `is_our_file`. */
module AppLoader {
  import opened Wrappers
  import opened PhpStrings
  import opened Plugin

  /** The file system as this resolver sees it: the paths that exist (files
      and directories alike, as `file_exists` and `stream_resolve_include_path`
      report them), and, for each directory a `RecursiveDirectoryIterator` can
      open, the paths its recursive walk yields in order. A directory missing
      from `walks` cannot be opened, and the iterator's constructor throws. */
  datatype Disk = Disk(present: set<string>, walks: map<string, seq<string>>)

  /** Outcome of the recursive search. */
  datatype Search = Found(path: string) | NotFound | Unopenable(dir: string)

  // ---------------------------------------------------------------------
  // is_our_file
  // ---------------------------------------------------------------------

  /** `is_our_file( $file )`: false for a non-string; otherwise the
      `stristr` of the plugin directory in the path must be truthy and the
      path must exist. */
  function IsOurFile(app: App, present: set<string>, file: Value): (r: bool)
    ensures r ==> file.Str? && file.str in present
  {
    file.Str? && Truthy(Stristr(file.str, PluginDir(app))) && file.str in present
  }

  /** For any plugin directory other than `''` and `'0'`, `is_our_file` is a
      case-insensitive containment of the plugin directory plus existence. */
  lemma IsOurFileIff(app: App, present: set<string>, file: Value)
    requires !PhpEmpty(PluginDir(app))
    ensures IsOurFile(app, present, file) <==>
      file.Str? && ContainsCI(file.str, PluginDir(app)) && file.str in present
  {
    if file.Str? {
      StristrTruthy(file.str, PluginDir(app));
    }
  }

  // ---------------------------------------------------------------------
  // The convention candidates
  // ---------------------------------------------------------------------

  /** `autoload_app_file`: `<path>/app/class-<slug>.php`. */
  function AppFile(app: App, parts: seq<string>): (r: string)
    requires |parts| >= 1
    ensures r == TrailingSlashIt(app.path) + "app/" + ClassFile(parts)
  {
    assert TrailingSlashIt("app") == "app/";
    AutoloadDir(app.path, "app") + ClassFile(parts)
  }

  /** `autoload_component_file`: the last segment's slug names both the
      directory under `components/` and the file. */
  function ComponentFile(app: App, parts: seq<string>): (r: string)
    requires |parts| >= 1
    ensures var slug := Slug(parts[|parts| - 1]);
      r == AutoloadDir(app.path, "components/" + slug) + "class-" + slug + ".php"
  {
    var slug := Slug(parts[|parts| - 1]);
    AutoloadDir(app.path, "components/" + slug) + ClassFile(parts)
  }

  /** The candidate `autoload_service_file` builds under one service
      directory: `<path>/<dir>/<slug>/class-<slug>.php`. */
  function ServiceCandidate(app: App, parts: seq<string>, dir: string): (r: string)
    requires |parts| >= 1
    ensures TrailingSlashIt(app.path) <= r
    ensures |ClassFile(parts)| <= |r| && r[|r| - |ClassFile(parts)|..] == ClassFile(parts)
  {
    AutoloadDir(app.path, TrailingSlashIt(dir) + Slug(parts[|parts| - 1])) + ClassFile(parts)
  }

  /** `autoload_service_file`: the candidate under `services` if it exists,
      else the one under `features` (kept for backwards compatibility) if it
      exists, else null (NonString). */
  function ServiceFile(app: App, present: set<string>, parts: seq<string>): (r: Value)
    requires |parts| >= 1
    ensures r.Str? ==> r.str in present
    ensures r.Str? ==> r.str in {ServiceCandidate(app, parts, "services"), ServiceCandidate(app, parts, "features")}
    ensures ServiceCandidate(app, parts, "services") in present ==> r == Str(ServiceCandidate(app, parts, "services"))
    ensures r.NonString? <==>
      ServiceCandidate(app, parts, "services") !in present && ServiceCandidate(app, parts, "features") !in present
  {
    var services := ServiceCandidate(app, parts, "services");
    var features := ServiceCandidate(app, parts, "features");
    if services in present then Str(services)
    else if features in present then Str(features)
    else NonString
  }

  // ---------------------------------------------------------------------
  // The recursive fallback
  // ---------------------------------------------------------------------

  /** The roots the fallback walks, in order. */
  const RecursiveRoots: seq<string> := ["app", "components", "services"]

  /** A walked path is taken when it mentions `.php` in any case and its
      base name is the canonical file name. */
  predicate WalkMatch(p: string, file: string) {
    Truthy(Stristr(p, ".php")) && Basename(p) == file
  }

  /** `stristr( $f, '.php' )` is a case-insensitive containment test. */
  lemma WalkMatchIff(p: string, file: string)
    ensures WalkMatch(p, file) <==> ContainsCI(p, ".php") && Basename(p) == file
  {
    StristrTruthy(p, ".php");
  }

  /** The test a walked path must pass to be the canonical `file`. */
  function Matches(file: string): string -> bool {
    p => WalkMatch(p, file)
  }

  /** `k` is the first position of `walk` that `hit` accepts. */
  ghost predicate FirstHitAt(walk: seq<string>, hit: string -> bool, k: nat) {
    k < |walk| && hit(walk[k]) && forall m :: 0 <= m < k ==> !hit(walk[m])
  }

  /** `dir` can be walked and yields nothing `hit` accepts. */
  ghost predicate Clean(walks: map<string, seq<string>>, dir: string, hit: string -> bool) {
    dir in walks && forall m :: 0 <= m < |walks[dir]| ==> !hit(walks[dir][m])
  }

  /** The first `i` roots can all be walked and yield nothing `hit` accepts. */
  ghost predicate CleanBefore(dirs: seq<string>, walks: map<string, seq<string>>, hit: string -> bool, i: nat)
    requires i <= |dirs|
  {
    forall j :: 0 <= j < i ==> Clean(walks, dirs[j], hit)
  }

  /** The nested `foreach` of `autoload_recursive_file`: roots in order, each
      walked in order; the first accepted path is returned, an unopenable root
      throws, and falling off the end returns nothing. */
  function SearchDirs(dirs: seq<string>, walks: map<string, seq<string>>, hit: string -> bool): (r: Search)
    ensures r.Found? ==> hit(r.path)
    decreases |dirs|
  {
    if |dirs| == 0 then NotFound
    else if dirs[0] !in walks then Unopenable(dirs[0])
    else match FirstWhere(walks[dirs[0]], hit)
      case Some(k) => Found(walks[dirs[0]][k])
      case None => SearchDirs(dirs[1..], walks, hit)
  }

  /** The search returns the first accepted path of the first root that has
      one, provided every earlier root could be walked and had none; it
      throws for the first root that cannot be opened, provided every earlier
      root was walked clean; and it returns nothing exactly when every root
      was walked clean. */
  lemma {:induction false} SearchDirsSpec(dirs: seq<string>, walks: map<string, seq<string>>, hit: string -> bool)
    ensures var r := SearchDirs(dirs, walks, hit);
      r.Found? ==> exists i: nat, k: nat :: (i < |dirs| && CleanBefore(dirs, walks, hit, i)
        && dirs[i] in walks && FirstHitAt(walks[dirs[i]], hit, k) && walks[dirs[i]][k] == r.path)
    ensures var r := SearchDirs(dirs, walks, hit);
      r.Unopenable? ==> exists i: nat :: (i < |dirs| && CleanBefore(dirs, walks, hit, i)
        && dirs[i] !in walks && dirs[i] == r.dir)
    ensures SearchDirs(dirs, walks, hit).NotFound? <==> CleanBefore(dirs, walks, hit, |dirs|)
    decreases |dirs|
  {
    if |dirs| == 0 {
    } else if dirs[0] !in walks {
      assert CleanBefore(dirs, walks, hit, 0);
    } else {
      var w := walks[dirs[0]];
      match FirstWhere(w, hit)
      case Some(k) =>
        assert CleanBefore(dirs, walks, hit, 0);
        assert FirstHitAt(w, hit, k);
        assert !CleanBefore(dirs, walks, hit, |dirs|) by {
          assert !Clean(walks, dirs[0], hit);
        }
      case None =>
        var tail := dirs[1..];
        SearchDirsSpec(tail, walks, hit);
        assert Clean(walks, dirs[0], hit);
        assert forall i :: 0 <= i < |tail| ==> tail[i] == dirs[i + 1];
        assert forall i: nat :: i <= |tail| && CleanBefore(tail, walks, hit, i) ==>
          CleanBefore(dirs, walks, hit, i + 1);
        assert CleanBefore(dirs, walks, hit, |dirs|) ==> CleanBefore(tail, walks, hit, |tail|);
    }
  }

  /** The three roots under the plugin path. */
  function RootDirs(app: App): seq<string> {
    seq(|RecursiveRoots|, i requires 0 <= i < |RecursiveRoots| => AutoloadDir(app.path, RecursiveRoots[i]))
  }

  /** `autoload_recursive_file`: whatever it finds mentions `.php` and has
      the canonical base name. */
  function RecursiveFile(app: App, disk: Disk, parts: seq<string>): (r: Search)
    requires |parts| >= 1
    ensures r.Found? ==> WalkMatch(r.path, ClassFile(parts))
  {
    SearchDirs(RootDirs(app), disk.walks, Matches(ClassFile(parts)))
  }

  /** The fallback returns the first match of the first of `app`,
      `components` and `services` that has one, after earlier roots were
      walked clean; it throws for the first unopenable root, once the
      earlier ones were walked clean; it returns nothing
      exactly when all three were walked clean. */
  lemma RecursiveFileSpec(app: App, disk: Disk, parts: seq<string>)
    requires |parts| >= 1
    ensures var r := RecursiveFile(app, disk, parts); var dirs := RootDirs(app); var hit := Matches(ClassFile(parts));
      r.Found? ==> exists i: nat, k: nat :: (i < 3 && CleanBefore(dirs, disk.walks, hit, i)
        && dirs[i] in disk.walks && FirstHitAt(disk.walks[dirs[i]], hit, k) && disk.walks[dirs[i]][k] == r.path)
    ensures var r := RecursiveFile(app, disk, parts); var dirs := RootDirs(app); var hit := Matches(ClassFile(parts));
      r.Unopenable? ==> exists i: nat :: (i < 3 && CleanBefore(dirs, disk.walks, hit, i)
        && dirs[i] !in disk.walks && dirs[i] == r.dir)
    ensures RecursiveFile(app, disk, parts).NotFound? <==>
      CleanBefore(RootDirs(app), disk.walks, Matches(ClassFile(parts)), 3)
  {
    var dirs := RootDirs(app);
    var hit := Matches(ClassFile(parts));
    assert |dirs| == 3;
    SearchDirsSpec(dirs, disk.walks, hit);
    assert RecursiveFile(app, disk, parts) == SearchDirs(dirs, disk.walks, hit);
  }

  // ---------------------------------------------------------------------
  // autoload_from_parts / autoload
  // ---------------------------------------------------------------------

  /** `autoload_from_parts`: the app file, the component file and the
      service file are tried in that order, and the first that is our file is
      loaded; failing all three, the recursive search's hit is loaded if it is
      our file; an unopenable search root escapes as an exception. */
  function AutoloadFromParts(app: App, disk: Disk, parts: seq<string>): (r: Load)
    requires |parts| >= 1
    ensures r.Loaded? ==> IsOurFile(app, disk.present, Str(r.file))
    ensures IsOurFile(app, disk.present, Str(AppFile(app, parts))) ==> r == Loaded(AppFile(app, parts))
    ensures (!IsOurFile(app, disk.present, Str(AppFile(app, parts)))
      && IsOurFile(app, disk.present, Str(ComponentFile(app, parts)))) ==> r == Loaded(ComponentFile(app, parts))
  {
    var present := disk.present;
    var service := ServiceFile(app, present, parts);
    if IsOurFile(app, present, Str(AppFile(app, parts))) then Loaded(AppFile(app, parts))
    else if IsOurFile(app, present, Str(ComponentFile(app, parts))) then Loaded(ComponentFile(app, parts))
    else if IsOurFile(app, present, service) then Loaded(service.str)
    else FromSearch(app, present, RecursiveFile(app, disk, parts))
  }

  /** The last step of `autoload_from_parts`: the recursive search's hit is
      loaded when it is our file, and an unopenable root escapes as the
      iterator's exception. */
  function FromSearch(app: App, present: set<string>, s: Search): (r: Load)
    ensures r.Threw? <==> s.Unopenable?
    ensures r.Loaded? <==> s.Found? && IsOurFile(app, present, Str(s.path))
    ensures r.Loaded? ==> r.file == s.path
  {
    match s
    case Found(p) => if IsOurFile(app, present, Str(p)) then Loaded(p) else NothingLoaded
    case NotFound => NothingLoaded
    case Unopenable(d) => Threw("UnexpectedValueException: " + d)
  }

  /** When neither the app file nor the component file is our file, the
      service file is loaded if it is our file, and otherwise the outcome is
      the recursive search's. */
  lemma AutoloadFallback(app: App, disk: Disk, parts: seq<string>)
    requires |parts| >= 1
    requires !IsOurFile(app, disk.present, Str(AppFile(app, parts)))
    requires !IsOurFile(app, disk.present, Str(ComponentFile(app, parts)))
    ensures var v := ServiceFile(app, disk.present, parts);
      IsOurFile(app, disk.present, v) ==> AutoloadFromParts(app, disk, parts) == Loaded(v.str)
    ensures !IsOurFile(app, disk.present, ServiceFile(app, disk.present, parts)) ==>
      AutoloadFromParts(app, disk, parts) == FromSearch(app, disk.present, RecursiveFile(app, disk, parts))
  {
  }

  /** `autoload( $class_name )`: explode on `\` and resolve. */
  function Autoload(app: App, disk: Disk, className: string): (r: Load)
    ensures r.Loaded? ==> IsOurFile(app, disk.present, Str(r.file))
  {
    AutoloadFromParts(app, disk, Explode('\\', className))
  }

  /** A loaded file is one of the convention candidates of the exploded
      class name or the recursive search's hit for it. */
  lemma AutoloadSources(app: App, disk: Disk, className: string)
    requires Autoload(app, disk, className).Loaded?
    ensures var parts := Explode('\\', className); var f := Autoload(app, disk, className).file;
      || f == AppFile(app, parts) || f == ComponentFile(app, parts)
      || ServiceFile(app, disk.present, parts) == Str(f)
      || RecursiveFile(app, disk, parts) == Found(f)
  {
    var parts := Explode('\\', className);
    var present := disk.present;
    if !IsOurFile(app, present, Str(AppFile(app, parts))) && !IsOurFile(app, present, Str(ComponentFile(app, parts)))
      && !IsOurFile(app, present, ServiceFile(app, present, parts))
    {
      var s := RecursiveFile(app, disk, parts);
      assert AutoloadFromParts(app, disk, parts) == FromSearch(app, present, s);
    }
  }

  // ---------------------------------------------------------------------
  // With the plugin path WordPress computes
  // ---------------------------------------------------------------------

  /** `plugin_dir_path` is `trailingslashit( dirname( $file ) )`; the plugin
      directory is then a prefix of every path built under the plugin path,
      unless it ends in a backslash (which `trailingslashit` would drop). */
  ghost predicate StandardPath(app: App) {
    && app.path == TrailingSlashIt(PluginDir(app))
    && PluginDir(app) != ""
    && PluginDir(app)[|PluginDir(app)| - 1] != '\\'
  }

  lemma PrefixTrans(a: string, b: string, c: string)
    requires a <= b && b <= c
    ensures a <= c
  {
    assert c[..|a|] == b[..|a|];
  }

  /** Anything extending a slashed prefix of `c` is a prefix of `c`, and `c`
      is then neither `''` nor `'0'`. */
  lemma UnderSlashed(d: string, t: string, c: string)
    requires d <= t && t <= c
    requires |t| >= 1 && t[|t| - 1] == '/'
    ensures d <= c && !PhpEmpty(c)
  {
    PrefixTrans(d, t, c);
    assert c[|t| - 1] == '/';
  }

  lemma LowerPrefix(a: string, b: string)
    requires a <= b
    ensures Lower(a) <= Lower(b)
  {
    assert Lower(b)[..|a|] == Lower(a);
  }

  /** Under a standard plugin path the plugin directory is a prefix of the
      plugin path with its trailing slash. */
  lemma DirUnderPath(app: App)
    requires StandardPath(app)
    ensures PluginDir(app) <= TrailingSlashIt(app.path)
  {
    var d := PluginDir(app);
    assert d == "/" || !IsSlash(d[|d| - 1]);
    TrailingSlashItIdempotent(d);
    SlashedPrefix(d);
  }

  /** A directory that does not end in a separator, or is the root, is a
      prefix of its slashed form. */
  lemma SlashedPrefix(d: string)
    requires d != ""
    requires d == "/" || !IsSlash(d[|d| - 1])
    ensures d <= TrailingSlashIt(d)
  {
    if d != "/" {
      UntrailingFixed(d);
    }
  }

  /** A path that starts with the plugin directory is our file exactly when
      it exists. */
  lemma PrefixIsOurs(app: App, present: set<string>, c: string)
    requires PluginDir(app) <= c
    requires !PhpEmpty(c)
    ensures IsOurFile(app, present, Str(c)) <==> c in present
  {
    LowerPrefix(PluginDir(app), c);
    StristrAtStart(c, PluginDir(app));
  }

  /** Under a standard plugin path, `is_our_file` of any path built under
      that path is plain existence. */
  lemma UnderPathIsOurs(app: App, present: set<string>, c: string)
    requires StandardPath(app)
    requires TrailingSlashIt(app.path) <= c
    ensures IsOurFile(app, present, Str(c)) <==> c in present
  {
    DirUnderPath(app);
    UnderSlashed(PluginDir(app), TrailingSlashIt(app.path), c);
    PrefixIsOurs(app, present, c);
  }

  /** The four convention paths pass `is_our_file` exactly when they exist. */
  ghost predicate OursIsPresence(app: App, present: set<string>, parts: seq<string>)
    requires |parts| >= 1
  {
    && (IsOurFile(app, present, Str(AppFile(app, parts))) <==> AppFile(app, parts) in present)
    && (IsOurFile(app, present, Str(ComponentFile(app, parts))) <==> ComponentFile(app, parts) in present)
    && (IsOurFile(app, present, Str(ServiceCandidate(app, parts, "services"))) <==>
        ServiceCandidate(app, parts, "services") in present)
    && (IsOurFile(app, present, Str(ServiceCandidate(app, parts, "features"))) <==>
        ServiceCandidate(app, parts, "features") in present)
  }

  /** Under a standard plugin path, `is_our_file` of each convention path is
      its existence. */
  lemma StandardOursIsPresence(app: App, present: set<string>, parts: seq<string>)
    requires |parts| >= 1
    requires StandardPath(app)
    ensures OursIsPresence(app, present, parts)
  {
    var t := TrailingSlashIt(app.path);
    var slug := Slug(parts[|parts| - 1]);
    UnderPathIsOurs(app, present, AppFile(app, parts));
    UnderPathIsOurs(app, present, ComponentFile(app, parts));
    var services := ServiceCandidate(app, parts, "services");
    PrefixTrans(t, AutoloadDir(app.path, TrailingSlashIt("services") + slug), services);
    UnderPathIsOurs(app, present, services);
    var features := ServiceCandidate(app, parts, "features");
    PrefixTrans(t, AutoloadDir(app.path, TrailingSlashIt("features") + slug), features);
    UnderPathIsOurs(app, present, features);
  }

  /** When `is_our_file` is existence, the load follows existence in priority
      order: app, components, services, features. */
  lemma PresenceOrder(app: App, disk: Disk, parts: seq<string>)
    requires |parts| >= 1
    requires OursIsPresence(app, disk.present, parts)
    ensures AppFile(app, parts) in disk.present ==>
      AutoloadFromParts(app, disk, parts) == Loaded(AppFile(app, parts))
    ensures AppFile(app, parts) !in disk.present && ComponentFile(app, parts) in disk.present ==>
      AutoloadFromParts(app, disk, parts) == Loaded(ComponentFile(app, parts))
    ensures (AppFile(app, parts) !in disk.present && ComponentFile(app, parts) !in disk.present
      && ServiceCandidate(app, parts, "services") in disk.present) ==>
      AutoloadFromParts(app, disk, parts) == Loaded(ServiceCandidate(app, parts, "services"))
    ensures (AppFile(app, parts) !in disk.present && ComponentFile(app, parts) !in disk.present
      && ServiceCandidate(app, parts, "services") !in disk.present
      && ServiceCandidate(app, parts, "features") in disk.present) ==>
      AutoloadFromParts(app, disk, parts) == Loaded(ServiceCandidate(app, parts, "features"))
  {
    if AppFile(app, parts) !in disk.present && ComponentFile(app, parts) !in disk.present {
      AutoloadFallback(app, disk, parts);
    }
  }

  /** Under a standard plugin path the load follows existence in priority
      order: app, components, services, features. */
  lemma ConventionOrder(app: App, disk: Disk, parts: seq<string>)
    requires |parts| >= 1
    requires StandardPath(app)
    ensures AppFile(app, parts) in disk.present ==>
      AutoloadFromParts(app, disk, parts) == Loaded(AppFile(app, parts))
    ensures AppFile(app, parts) !in disk.present && ComponentFile(app, parts) in disk.present ==>
      AutoloadFromParts(app, disk, parts) == Loaded(ComponentFile(app, parts))
    ensures (AppFile(app, parts) !in disk.present && ComponentFile(app, parts) !in disk.present
      && ServiceCandidate(app, parts, "services") in disk.present) ==>
      AutoloadFromParts(app, disk, parts) == Loaded(ServiceCandidate(app, parts, "services"))
    ensures (AppFile(app, parts) !in disk.present && ComponentFile(app, parts) !in disk.present
      && ServiceCandidate(app, parts, "services") !in disk.present
      && ServiceCandidate(app, parts, "features") in disk.present) ==>
      AutoloadFromParts(app, disk, parts) == Loaded(ServiceCandidate(app, parts, "features"))
  {
    StandardOursIsPresence(app, disk.present, parts);
    PresenceOrder(app, disk, parts);
  }
}

=== FILE: includes_loader.dfy ===
/** The autoloader of `includes/class-app.php`: only class names in the
    plugin's namespace are resolved; the file is looked for in `includes/`,
    then `components/<parts[2]>/`, then `services/<parts[2]>/`, and each
    candidate must resolve on the include path. The component and service
    builders throw when the name has fewer than three segments. */
module IncludesLoader {
  import opened Wrappers
  import opened PhpStrings
  import opened Plugin
  import AppLoader

  /** The namespace every class this loader resolves must start with,
      ending in the separator. */
  const NamespacePrefix: string := "__YourCompanyName__\\__YourPluginName__\\"

  /** The message of the exception the builders throw. */
  const PartsMissing: string := "$parts[2] must be set."

  /** `autoload_include_file`: `<path>/includes/class-<slug>.php`. */
  function IncludeFile(app: App, parts: seq<string>): (r: string)
    requires |parts| >= 1
    ensures r == TrailingSlashIt(app.path) + "includes/" + ClassFile(parts)
  {
    assert TrailingSlashIt("includes") == "includes/";
    AutoloadDir(app.path, "includes") + ClassFile(parts)
  }

  /** The shape both builders share: the directory `<kind><slug of
      parts[2]>` under the plugin path, then the canonical file name of the
      last segment; an exception when `parts[2]` is unset. */
  function SegmentFile(app: App, parts: seq<string>, kind: string): (r: Result<string, string>)
    ensures r.Failure? <==> |parts| < 3
    ensures r.Failure? ==> r.error == PartsMissing
    ensures r.Success? ==> TrailingSlashIt(app.path) <= r.value
    ensures r.Success? ==>
      && |parts| >= 3
      && r.value == AutoloadDir(app.path, kind + Slug(parts[2])) + "class-" + Slug(parts[|parts| - 1]) + ".php"
  {
    if |parts| >= 3 then
      Success(AutoloadDir(app.path, kind + Slug(parts[2])) + ClassFile(parts))
    else
      Failure(PartsMissing)
  }

  /** `autoload_component_file`. */
  function ComponentFile(app: App, parts: seq<string>): (r: Result<string, string>)
    ensures r.Failure? <==> |parts| < 3
    ensures r.Success? ==> TrailingSlashIt(app.path) <= r.value
  {
    SegmentFile(app, parts, "components/")
  }

  /** `autoload_service_file`. */
  function ServiceFile(app: App, parts: seq<string>): (r: Result<string, string>)
    ensures r.Failure? <==> |parts| < 3
    ensures r.Success? ==> TrailingSlashIt(app.path) <= r.value
  {
    SegmentFile(app, parts, "services/")
  }

  /** Two names that agree on their third and last segments resolve to the
      same component and service paths, whatever lies between. */
  lemma SegmentFileDependsOnThirdAndLast(app: App, parts: seq<string>, other: seq<string>, kind: string)
    requires |parts| >= 3 && |other| >= 3
    requires parts[2] == other[2] && parts[|parts| - 1] == other[|other| - 1]
    ensures SegmentFile(app, parts, kind) == SegmentFile(app, other, kind)
  {
  }

  /** `autoload_from_parts`: the include file, then the component file, then
      the service file; the first that resolves is loaded; a builder's
      exception escapes. */
  function AutoloadFromParts(app: App, present: set<string>, parts: seq<string>): (r: Load)
    requires |parts| >= 1
    ensures r.Loaded? ==> r.file in present
    ensures r.Threw? <==> IncludeFile(app, parts) !in present && |parts| < 3
    ensures r.Threw? ==> r.reason == PartsMissing
  {
    var inc := IncludeFile(app, parts);
    if inc in present then Loaded(inc)
    else match ComponentFile(app, parts)
      case Failure(e) => Threw(e)
      case Success(component) =>
        if component in present then Loaded(component)
        else match ServiceFile(app, parts)
          case Failure(e) => Threw(e)
          case Success(service) => if service in present then Loaded(service) else NothingLoaded
  }

  /** For a name with at least three segments the first candidate that
      resolves is loaded, in the order include, component, service, and
      nothing is loaded when none resolves. */
  lemma ResolutionOrder(app: App, present: set<string>, parts: seq<string>)
    requires |parts| >= 3
    ensures var r := AutoloadFromParts(app, present, parts);
      var c := ComponentFile(app, parts).value; var s := ServiceFile(app, parts).value;
      && (IncludeFile(app, parts) in present ==> r == Loaded(IncludeFile(app, parts)))
      && (IncludeFile(app, parts) !in present && c in present ==> r == Loaded(c))
      && (IncludeFile(app, parts) !in present && c !in present && s in present ==> r == Loaded(s))
      && (IncludeFile(app, parts) !in present && c !in present && s !in present ==> r == NothingLoaded)
  {
  }

  /** `strpos( $s, $prefix ) === 0` is the prefix test. */
  lemma StrposZeroIffPrefix(s: string, prefix: string)
    ensures IndexOf(s, prefix) == Some(0) <==> prefix <= s
  {
    IndexOfSpec(s, prefix);
    if prefix <= s {
      assert s[0..|prefix|] == prefix;
    }
  }

  /** `autoload( $class_name )`: names outside the namespace are ignored;
      the rest are exploded on `\` and resolved. */
  function Autoload(app: App, present: set<string>, className: string): (r: Load)
    ensures r.Loaded? ==> r.file in present
  {
    if IndexOf(className, NamespacePrefix) != Some(0) then NothingLoaded
    else AutoloadFromParts(app, present, Explode('\\', className))
  }

  /** A class name outside the namespace resolves nothing and loads nothing. */
  lemma ForeignNameIgnored(app: App, present: set<string>, className: string)
    requires !(NamespacePrefix <= className)
    ensures Autoload(app, present, className) == NothingLoaded
  {
    StrposZeroIffPrefix(className, NamespacePrefix);
  }

  /** A name inside the namespace has at least three segments, the first two
      being the company and plugin names. */
  lemma PrefixedNameParts(className: string)
    requires NamespacePrefix <= className
    ensures var parts := Explode('\\', className);
      |parts| >= 3 && parts[0] == "__YourCompanyName__" && parts[1] == "__YourPluginName__"
  {
    var company := "__YourCompanyName__";
    var plugin := "__YourPluginName__";
    var rest := className[|NamespacePrefix|..];
    assert className == NamespacePrefix + rest;
    assert NamespacePrefix == company + ['\\'] + plugin + ['\\'];
    assert className == company + ['\\'] + (plugin + ['\\'] + rest);
    ExplodeCons('\\', plugin, rest);
    ExplodeCons('\\', company, plugin + ['\\'] + rest);
  }

  /** The builders' exception cannot escape `autoload`: every name that
      passes the prefix test has a third segment. */
  lemma AutoloadNeverThrows(app: App, present: set<string>, className: string)
    ensures !Autoload(app, present, className).Threw?
  {
    StrposZeroIffPrefix(className, NamespacePrefix);
    if NamespacePrefix <= className {
      PrefixedNameParts(className);
    }
  }

  /** For a three-segment name the third segment is the last one, so this
      loader's component path is the one the `app/` loader builds. */
  lemma ThreePartsMatchAppLoader(app: App, parts: seq<string>)
    requires |parts| == 3
    ensures ComponentFile(app, parts) == Success(AppLoader.ComponentFile(app, parts))
  {
    assert parts[2] == parts[|parts| - 1];
    var slug := Slug(parts[2]);
    assert ComponentFile(app, parts).value == AutoloadDir(app.path, "components/" + slug) + ClassFile(parts);
  }
}

=== FILE: lifecycle.dfy ===
/** The lifecycle broadcast of both App variants: `autocall( $call )` walks
    the App's properties in the order `get_object_vars` yields them (the
    declared properties first, then the dynamic ones in assignment order)
    and invokes `call` on every property that is an object with a method of
    that name (PHP method names are matched without regard to ASCII case).
    The `app/` variant's `deactivate_plugin` is the same walk for
    `deactivate_plugin`; the `includes/` variant's is empty. */
module Lifecycle {
  import opened PhpStrings

  /** One property of the App, as `get_object_vars` yields it: a non-object
      (a string, a bool, null), or an object with the names of its methods. */
  datatype Property = NotObject | Obj(methods: set<string>)

  /** One call made by the broadcast: the method name invoked on the property at
      `index`. */
  datatype Invocation = Invocation(index: nat, name: string)

  /** `is_object( $prop ) && method_exists( $prop, $call )`. */
  predicate Responds(p: Property, call: string) {
    p.Obj? && exists m :: m in p.methods && Lower(m) == Lower(call)
  }

  /** `trace` is the broadcast of `call` over the first `n` properties:
      every entry invokes `call` on a responding property below `n`, every
      responding property below `n` is invoked, and the entries follow the
      property order with no property invoked twice. */
  ghost predicate IsTraceUpTo(props: seq<Property>, call: string, n: nat, trace: seq<Invocation>)
    requires n <= |props|
  {
    && (forall k :: 0 <= k < |trace| ==>
          trace[k].name == call && trace[k].index < n && Responds(props[trace[k].index], call))
    && (forall i :: 0 <= i < n && Responds(props[i], call) ==> Invocation(i, call) in trace)
    && (forall k, l :: 0 <= k < l < |trace| ==> trace[k].index < trace[l].index)
  }

  /** `trace` is the broadcast of `call` over all the properties. */
  ghost predicate IsTrace(props: seq<Property>, call: string, trace: seq<Invocation>) {
    IsTraceUpTo(props, call, |props|, trace)
  }

  /** `autocall( $call )`: the calls made, in the order they are made. */
  method Autocall(props: seq<Property>, call: string) returns (trace: seq<Invocation>)
    ensures IsTrace(props, call, trace)
  {
    trace := [];
    var i := 0;
    while i < |props|
      invariant 0 <= i <= |props|
      invariant IsTraceUpTo(props, call, i, trace)
    {
      if Responds(props[i], call) {
        trace := trace + [Invocation(i, call)];
      }
      i := i + 1;
    }
  }

  /** `deactivate_plugin()` of the `app/` variant: the broadcast of
      `deactivate_plugin`. */
  method DeactivatePlugin(props: seq<Property>) returns (trace: seq<Invocation>)
    ensures IsTrace(props, "deactivate_plugin", trace)
  {
    trace := Autocall(props, "deactivate_plugin");
  }

  /** `deactivate_plugin()` of the `includes/` variant: no call is made. */
  function IncludesDeactivatePlugin(props: seq<Property>): (r: seq<Invocation>)
    ensures r == []
  {
    []
  }

  /** A reference definition of the broadcast over the first `n`
      properties, built from the end. */
  function Broadcast(props: seq<Property>, call: string, n: nat): seq<Invocation>
    requires n <= |props|
  {
    if n == 0 then []
    else
      var tail := if Responds(props[n - 1], call) then [Invocation(n - 1, call)] else [];
      Broadcast(props, call, n - 1) + tail
  }

  /** The reference definition is a broadcast. */
  lemma {:induction false} BroadcastIsTrace(props: seq<Property>, call: string, n: nat)
    requires n <= |props|
    ensures IsTraceUpTo(props, call, n, Broadcast(props, call, n))
  {
    if n > 0 {
      BroadcastIsTrace(props, call, n - 1);
      var prev := Broadcast(props, call, n - 1);
      var tail := if Responds(props[n - 1], call) then [Invocation(n - 1, call)] else [];
      assert Broadcast(props, call, n) == prev + tail;
      StepCalls(props, call, n, prev, tail);
      StepCovers(props, call, n, prev, tail);
      StepOrdered(props, call, n, prev, tail);
    }
  }

  /** Extending a broadcast over `n - 1` properties by the `n`-th one's call
      (if any) only calls responders below `n`. */
  lemma StepCalls(props: seq<Property>, call: string, n: nat, prev: seq<Invocation>, tail: seq<Invocation>)
    requires 0 < n <= |props| && IsTraceUpTo(props, call, n - 1, prev)
    requires tail == if Responds(props[n - 1], call) then [Invocation(n - 1, call)] else []
    ensures forall k :: 0 <= k < |prev + tail| ==>
      (prev + tail)[k].name == call && (prev + tail)[k].index < n
      && Responds(props[(prev + tail)[k].index], call)
  {
    var t := prev + tail;
    forall k | 0 <= k < |t|
      ensures t[k].name == call && t[k].index < n && Responds(props[t[k].index], call)
    {
      if k < |prev| {
        assert t[k] == prev[k];
      }
    }
  }

  /** The extension calls every responder below `n`. */
  lemma StepCovers(props: seq<Property>, call: string, n: nat, prev: seq<Invocation>, tail: seq<Invocation>)
    requires 0 < n <= |props| && IsTraceUpTo(props, call, n - 1, prev)
    requires tail == if Responds(props[n - 1], call) then [Invocation(n - 1, call)] else []
    ensures forall i :: 0 <= i < n && Responds(props[i], call) ==> Invocation(i, call) in prev + tail
  {
    var t := prev + tail;
    forall i | 0 <= i < n && Responds(props[i], call)
      ensures Invocation(i, call) in t
    {
      if i < n - 1 {
        var k :| 0 <= k < |prev| && prev[k] == Invocation(i, call);
        assert t[k] == Invocation(i, call);
      } else {
        assert t[|t| - 1] == Invocation(i, call);
      }
    }
  }

  /** The extension keeps the calls in property order. */
  lemma StepOrdered(props: seq<Property>, call: string, n: nat, prev: seq<Invocation>, tail: seq<Invocation>)
    requires 0 < n <= |props| && IsTraceUpTo(props, call, n - 1, prev)
    requires tail == if Responds(props[n - 1], call) then [Invocation(n - 1, call)] else []
    ensures forall k, l :: 0 <= k < l < |prev + tail| ==> (prev + tail)[k].index < (prev + tail)[l].index
  {
    var t := prev + tail;
    forall k, l | 0 <= k < l < |t|
      ensures t[k].index < t[l].index
    {
      assert t[k] == prev[k];
      if l < |prev| {
        assert t[l] == prev[l];
      }
    }
  }

  /** The indices of a trace, in order. */
  function Indices(trace: seq<Invocation>): (r: seq<nat>)
    ensures |r| == |trace|
    ensures forall k :: 0 <= k < |trace| ==> r[k] == trace[k].index
  {
    seq(|trace|, k requires 0 <= k < |trace| => trace[k].index)
  }

  ghost predicate Increasing(a: seq<nat>) {
    forall k, l :: 0 <= k < l < |a| ==> a[k] < a[l]
  }

  /** Two sequences with the same elements are empty together. */
  lemma EmptyTogether(a: seq<nat>, b: seq<nat>)
    requires forall x :: x in a <==> x in b
    ensures |a| == 0 <==> |b| == 0
  {
    if |a| > 0 {
      assert a[0] in b;
    }
    if |b| > 0 {
      assert b[0] in a;
    }
  }

  /** Two strictly increasing sequences with the same elements are equal. */
  lemma {:induction false} IncreasingDetermined(a: seq<nat>, b: seq<nat>)
    requires Increasing(a) && Increasing(b)
    requires forall x :: x in a <==> x in b
    ensures a == b
    decreases |a| + |b|
  {
    EmptyTogether(a, b);
    if |a| > 0 {
      assert a[0] in b;
      assert b[0] in a;
      assert a[0] == b[0];
      forall x
        ensures x in a[1..] <==> x in b[1..]
      {
        if x in a[1..] {
          assert x in a && x != a[0];
        }
        if x in b[1..] {
          assert x in b && x != b[0];
        }
      }
      IncreasingDetermined(a[1..], b[1..]);
      assert a == [a[0]] + a[1..] && b == [b[0]] + b[1..];
    }
  }

  /** A broadcast is determined by the properties and the call: whatever
      computes one, the loop or the reference definition, computes the same
      sequence of calls. */
  lemma TraceUnique(props: seq<Property>, call: string, t1: seq<Invocation>, t2: seq<Invocation>)
    requires IsTrace(props, call, t1) && IsTrace(props, call, t2)
    ensures t1 == t2
  {
    var a := Indices(t1);
    var b := Indices(t2);
    forall x
      ensures x in a <==> x in b
    {
      if x in a {
        var k :| 0 <= k < |a| && a[k] == x;
        assert t1[k] == Invocation(x, call);
      }
      if x in b {
        var k :| 0 <= k < |b| && b[k] == x;
        assert t2[k] == Invocation(x, call);
      }
    }
    IncreasingDetermined(a, b);
    assert forall k :: 0 <= k < |t1| ==> t1[k] == Invocation(a[k], call) == t2[k];
  }

  /** The loop computes the reference definition. */
  lemma TraceIsBroadcast(props: seq<Property>, call: string, trace: seq<Invocation>)
    requires IsTrace(props, call, trace)
    ensures trace == Broadcast(props, call, |props|)
  {
    BroadcastIsTrace(props, call, |props|);
    TraceUnique(props, call, trace, Broadcast(props, call, |props|));
  }

  /** Only the objects that define the method are called, each once: a
      property that does not respond never appears, and one that does appears
      exactly once. */
  lemma TraceCallsEachResponderOnce(props: seq<Property>, call: string, trace: seq<Invocation>, i: nat)
    requires IsTrace(props, call, trace) && i < |props|
    ensures !Responds(props[i], call) ==> forall k :: 0 <= k < |trace| ==> trace[k].index != i
    ensures Responds(props[i], call) ==>
      exists k :: 0 <= k < |trace| && trace[k].index == i
        && forall l :: 0 <= l < |trace| && l != k ==> trace[l].index != i
  {
    if Responds(props[i], call) {
      assert Invocation(i, call) in trace;
      var k :| 0 <= k < |trace| && trace[k] == Invocation(i, call);
      assert forall l :: 0 <= l < |trace| && l != k ==> trace[l].index != i;
    }
  }

  /** The two variants differ on deactivation: as soon as one property
      defines `deactivate_plugin` (in any case), the `app/` variant calls it
      and the `includes/` variant does not. */
  lemma DeactivationDiffers(props: seq<Property>, trace: seq<Invocation>, i: nat)
    requires IsTrace(props, "deactivate_plugin", trace)
    requires i < |props| && Responds(props[i], "deactivate_plugin")
    ensures Invocation(i, "deactivate_plugin") in trace
    ensures Invocation(i, "deactivate_plugin") !in IncludesDeactivatePlugin(props)
  {
  }
}

=== FILE: php_strings.dfy ===
/** The PHP string built-ins the plugin's path logic relies on, restricted to
    the behaviour the plugin exercises: ASCII case folding (the `strtolower`
    of PHP 8.2 on), single-character `str_replace`, `explode`, `strpos` /
    `stristr` with PHP truthiness, WordPress's `trailingslashit`, `trim`,
    and the Unix forms of `dirname` and `basename`. */
module PhpStrings {
  import opened Wrappers

  // ---------------------------------------------------------------------
  // Case folding and character replacement
  // ---------------------------------------------------------------------

  predicate IsUpper(c: char) {
    'A' <= c <= 'Z'
  }

  predicate NoUpper(s: string) {
    forall i :: 0 <= i < |s| ==> !IsUpper(s[i])
  }

  function LowerChar(c: char): (r: char)
    ensures !IsUpper(r)
    ensures IsUpper(c) ==> r as int == c as int + 32
    ensures !IsUpper(c) ==> r == c
  {
    if IsUpper(c) then (c as int + 32) as char else c
  }

  /** `strtolower`: only the ASCII letters A-Z change. */
  function Lower(s: string): (r: string)
    ensures |r| == |s|
    ensures forall i :: 0 <= i < |s| ==> r[i] == LowerChar(s[i])
  {
    seq(|s|, i requires 0 <= i < |s| => LowerChar(s[i]))
  }

  /** `str_replace($from, $to, $s)` for one-character search and replacement. */
  function ReplaceChar(s: string, from: char, to: char): (r: string)
    ensures |r| == |s|
    ensures forall i :: 0 <= i < |s| ==> r[i] == (if s[i] == from then to else s[i])
  {
    seq(|s|, i requires 0 <= i < |s| => if s[i] == from then to else s[i])
  }

  /** What one character of a segment becomes in its slug. */
  function SlugChar(c: char): char {
    if c == '_' then '-' else LowerChar(c)
  }

  /** `strtolower( str_replace( '_', '-', $segment ) )`, the slug both
      resolvers derive from a class-name segment. */
  function Slug(segment: string): (r: string)
    ensures |r| == |segment|
    ensures forall i :: 0 <= i < |segment| ==> r[i] == SlugChar(segment[i])
  {
    Lower(ReplaceChar(segment, '_', '-'))
  }

  /** A slug holds no `_` and no ASCII upper-case letter, and keeps every
      other character up to case. */
  lemma SlugShape(segment: string)
    ensures '_' !in Slug(segment) && NoUpper(Slug(segment))
    ensures forall i :: 0 <= i < |segment| && segment[i] != '_' ==> Slug(segment)[i] == LowerChar(segment[i])
  {
    var r := Slug(segment);
    forall i | 0 <= i < |r|
      ensures r[i] != '_' && !IsUpper(r[i])
    {
      assert r[i] == SlugChar(segment[i]);
    }
  }

  // ---------------------------------------------------------------------
  // explode and its inverse
  // ---------------------------------------------------------------------

  /** `implode` with a one-character glue; defined on non-empty lists only,
      which is all `explode` produces. */
  function Join(sep: char, parts: seq<string>): string
    requires |parts| >= 1
    decreases |parts|
  {
    if |parts| == 1 then parts[0] else parts[0] + [sep] + Join(sep, parts[1..])
  }

  /** `explode( $sep, $s )` for a one-character separator: never empty, no
      part holds the separator, and gluing the parts back gives `s`. */
  function Explode(sep: char, s: string): (parts: seq<string>)
    ensures |parts| >= 1
    ensures forall i :: 0 <= i < |parts| ==> sep !in parts[i]
    ensures Join(sep, parts) == s
    decreases |s|
  {
    if |s| == 0 then [""]
    else
      var rest := Explode(sep, s[1..]);
      if s[0] == sep then
        assert ([""] + rest)[1..] == rest;
        [""] + rest
      else
        var parts := [[s[0]] + rest[0]] + rest[1..];
        assert |rest| > 1 ==> parts[1..] == rest[1..];
        assert |rest| > 1 ==> Join(sep, rest) == rest[0] + [sep] + Join(sep, rest[1..]);
        assert s == [s[0]] + s[1..];
        parts
  }

  /** A separator-free head is split off as the first part. */
  lemma {:induction false} ExplodeCons(sep: char, head: string, tail: string)
    requires sep !in head
    ensures Explode(sep, head + [sep] + tail) == [head] + Explode(sep, tail)
    decreases |head|
  {
    if |head| == 0 {
      assert head + [sep] + tail == [sep] + tail;
      assert ([sep] + tail)[1..] == tail;
    } else {
      var s := head + [sep] + tail;
      assert s[1..] == head[1..] + [sep] + tail;
      ExplodeCons(sep, head[1..], tail);
      assert [head[0]] + head[1..] == head;
    }
  }

  /** A separator-free string is a single part. */
  lemma {:induction false} ExplodeAtom(sep: char, s: string)
    requires sep !in s
    ensures Explode(sep, s) == [s]
    decreases |s|
  {
    if |s| > 0 {
      ExplodeAtom(sep, s[1..]);
      assert [s[0]] + s[1..] == s;
    }
  }

  /** `explode` undoes `implode` whenever no part holds the separator. */
  lemma {:induction false} ExplodeJoin(sep: char, parts: seq<string>)
    requires |parts| >= 1
    requires forall i :: 0 <= i < |parts| ==> sep !in parts[i]
    ensures Explode(sep, Join(sep, parts)) == parts
    decreases |parts|
  {
    if |parts| == 1 {
      ExplodeAtom(sep, parts[0]);
    } else {
      ExplodeJoin(sep, parts[1..]);
      ExplodeCons(sep, parts[0], Join(sep, parts[1..]));
      assert [parts[0]] + parts[1..] == parts;
    }
  }

  // ---------------------------------------------------------------------
  // Substring search: strpos / stristr
  // ---------------------------------------------------------------------

  predicate OccursAt(s: string, needle: string, j: nat) {
    j + |needle| <= |s| && s[j..j + |needle|] == needle
  }

  ghost predicate Contains(s: string, needle: string) {
    exists j: nat :: OccursAt(s, needle, j)
  }

  /** ASCII case-insensitive containment. */
  ghost predicate ContainsCI(s: string, needle: string) {
    Contains(Lower(s), Lower(needle))
  }

  /** The scan behind `strpos`: the first position at or after `from` where
      `needle` occurs. */
  function FindFrom(s: string, needle: string, from: nat): (r: Option<nat>)
    ensures r.Some? ==> from <= r.value && r.value + |needle| <= |s|
    decreases |s| - from
  {
    if from + |needle| > |s| then None
    else if s[from..from + |needle|] == needle then Some(from)
    else FindFrom(s, needle, from + 1)
  }

  /** The scan finds the leftmost occurrence at or after `from`, and finds
      nothing only when there is none there. */
  lemma {:induction false} FindFromSpec(s: string, needle: string, from: nat)
    ensures var r := FindFrom(s, needle, from);
      r.Some? ==> from <= r.value && OccursAt(s, needle, r.value)
    ensures var r := FindFrom(s, needle, from);
      r.Some? ==> forall k: nat :: from <= k < r.value ==> !OccursAt(s, needle, k)
    ensures FindFrom(s, needle, from).None? ==> forall k: nat :: from <= k ==> !OccursAt(s, needle, k)
    decreases |s| - from
  {
    if from + |needle| > |s| {
    } else if s[from..from + |needle|] == needle {
    } else {
      FindFromSpec(s, needle, from + 1);
    }
  }

  /** `strpos`: the leftmost occurrence, or `false` (None). */
  function IndexOf(s: string, needle: string): (r: Option<nat>)
    ensures r.Some? ==> r.value + |needle| <= |s|
  {
    FindFrom(s, needle, 0)
  }

  /** `strpos` finds an occurrence with none before it, and returns `false`
      exactly when the needle does not occur. */
  lemma IndexOfSpec(s: string, needle: string)
    ensures var r := IndexOf(s, needle); r.Some? ==> OccursAt(s, needle, r.value)
    ensures var r := IndexOf(s, needle); r.Some? ==> forall k: nat :: k < r.value ==> !OccursAt(s, needle, k)
    ensures IndexOf(s, needle).None? <==> !Contains(s, needle)
  {
    FindFromSpec(s, needle, 0);
  }

  /** `stristr( $haystack, $needle )`: the rest of the haystack from the first
      case-insensitive occurrence of the needle on, or `false` (None). */
  function Stristr(haystack: string, needle: string): (r: Option<string>)
    ensures r.Some? ==> |r.value| <= |haystack| && r.value == haystack[|haystack| - |r.value|..]
  {
    match IndexOf(Lower(haystack), Lower(needle))
    case Some(j) => assert |Lower(haystack)| == |haystack|; Some(haystack[j..])
    case None => None
  }

  /** `stristr` returns `false` exactly when the needle does not occur up to
      ASCII case, and otherwise the haystack from its first such occurrence
      on. */
  lemma StristrSpec(haystack: string, needle: string)
    ensures Stristr(haystack, needle).None? <==> !ContainsCI(haystack, needle)
    ensures Stristr(haystack, needle).Some? ==> exists j: nat ::
      && OccursAt(Lower(haystack), Lower(needle), j)
      && (forall k: nat :: k < j ==> !OccursAt(Lower(haystack), Lower(needle), k))
      && Stristr(haystack, needle).value == haystack[j..]
  {
    IndexOfSpec(Lower(haystack), Lower(needle));
    var r := IndexOf(Lower(haystack), Lower(needle));
    if r.Some? {
      assert OccursAt(Lower(haystack), Lower(needle), r.value);
    }
  }

  /** PHP's `empty()` on a string: `''` and `'0'` are empty. */
  predicate PhpEmpty(s: string) {
    s == "" || s == "0"
  }

  /** PHP truthiness of a `string|false` value. */
  predicate Truthy(v: Option<string>) {
    v.Some? && !PhpEmpty(v.value)
  }

  /** For any needle other than `''` and `'0'`, a `stristr` result is truthy
      exactly when the needle occurs, ignoring ASCII case. */
  lemma StristrTruthy(haystack: string, needle: string)
    requires !PhpEmpty(needle)
    ensures Truthy(Stristr(haystack, needle)) <==> ContainsCI(haystack, needle)
  {
    var r := Stristr(haystack, needle);
    StristrSpec(haystack, needle);
    if r.Some? {
      var j: nat :| OccursAt(Lower(haystack), Lower(needle), j) && r.value == haystack[j..];
      assert |r.value| >= |needle| >= 1;
    }
  }

  /** When the lower-cased needle is a prefix of the lower-cased haystack,
      `stristr` returns the whole haystack. */
  lemma StristrAtStart(haystack: string, needle: string)
    requires Lower(needle) <= Lower(haystack)
    ensures Stristr(haystack, needle) == Some(haystack)
  {
    assert OccursAt(Lower(haystack), Lower(needle), 0);
    assert IndexOf(Lower(haystack), Lower(needle)) == Some(0);
  }

  // ---------------------------------------------------------------------
  // WordPress trailingslashit / untrailingslashit
  // ---------------------------------------------------------------------

  predicate IsSlash(c: char) {
    c == '/' || c == '\\'
  }

  predicate AllSlashes(s: string) {
    forall i :: 0 <= i < |s| ==> IsSlash(s[i])
  }

  /** `untrailingslashit`: `rtrim( $s, '/\\' )`. */
  function Untrailing(s: string): (r: string)
    ensures r <= s
    ensures AllSlashes(s[|r|..])
    ensures r == [] || !IsSlash(r[|r| - 1])
    decreases |s|
  {
    if |s| > 0 && IsSlash(s[|s| - 1]) then Untrailing(s[..|s| - 1]) else s
  }

  /** `trailingslashit`: the input with its trailing run of `/` and `\`
      replaced by exactly one `/`. */
  function TrailingSlashIt(s: string): (r: string)
    ensures |r| >= 1 && r[|r| - 1] == '/'
    ensures r[..|r| - 1] <= s
    ensures AllSlashes(s[|r| - 1..])
    ensures |r| == 1 || !IsSlash(r[|r| - 2])
  {
    var u := Untrailing(s);
    assert (u + "/")[..|u|] == u;
    u + "/"
  }

  /** A string already trimmed of trailing slashes is its own untrailing form. */
  lemma UntrailingFixed(s: string)
    requires s == [] || !IsSlash(s[|s| - 1])
    ensures Untrailing(s) == s
  {
  }

  /** `trailingslashit` is idempotent. */
  lemma TrailingSlashItIdempotent(s: string)
    ensures TrailingSlashIt(TrailingSlashIt(s)) == TrailingSlashIt(s)
  {
    var t := TrailingSlashIt(s);
    var u := Untrailing(s);
    assert t == u + "/";
    assert t[..|t| - 1] == u;
    assert Untrailing(t) == Untrailing(u);
    UntrailingFixed(u);
  }

  // ---------------------------------------------------------------------
  // trim
  // ---------------------------------------------------------------------

  /** The characters PHP's `trim` strips by default: space, tab, line feed,
      carriage return, NUL and vertical tab. */
  predicate IsTrimmable(c: char) {
    c == ' ' || c == '\t' || c == '\n' || c == '\r' || c == '\0' || c == '\U{000B}'
  }

  predicate AllTrimmable(s: string) {
    forall i :: 0 <= i < |s| ==> IsTrimmable(s[i])
  }

  function TrimLeft(s: string): (r: string)
    ensures |r| <= |s| && r == s[|s| - |r|..]
    ensures AllTrimmable(s[..|s| - |r|])
    ensures r == [] || !IsTrimmable(r[0])
    decreases |s|
  {
    if |s| > 0 && IsTrimmable(s[0]) then
      var r := TrimLeft(s[1..]);
      assert s[1..][|s| - 1 - |r|..] == s[|s| - |r|..];
      assert s[..|s| - |r|] == [s[0]] + s[1..][..|s| - 1 - |r|];
      r
    else
      s
  }

  function TrimRight(s: string): (r: string)
    ensures r <= s
    ensures AllTrimmable(s[|r|..])
    ensures r == [] || !IsTrimmable(r[|r| - 1])
    decreases |s|
  {
    if |s| > 0 && IsTrimmable(s[|s| - 1]) then TrimRight(s[..|s| - 1]) else s
  }

  /** `r` is `s` with only trimmable characters removed from either end. */
  ghost predicate IsPaddedBy(s: string, r: string) {
    exists i: nat :: PaddedAt(s, r, i)
  }

  /** `r` sits at position `i` of `s`, with only trimmable characters around it. */
  ghost predicate PaddedAt(s: string, r: string, i: nat) {
    i + |r| <= |s| && s[i..i + |r|] == r && AllTrimmable(s[..i]) && AllTrimmable(s[i + |r|..])
  }

  /** `trim`: strips the default character set from both ends. */
  function Trim(s: string): (r: string)
    ensures r == [] || (!IsTrimmable(r[0]) && !IsTrimmable(r[|r| - 1]))
  {
    var l := TrimLeft(s);
    var r := TrimRight(l);
    assert r == l[..|r|];
    assert r != [] ==> r[0] == l[0];
    r
  }

  /** `trim` removes only trimmable characters, and only from the ends. */
  lemma TrimPadded(s: string)
    ensures IsPaddedBy(s, Trim(s))
  {
    var l := TrimLeft(s);
    var r := TrimRight(l);
    var i := |s| - |l|;
    assert l == s[i..];
    assert s[i..i + |r|] == l[..|r|];
    assert s[i + |r|..] == l[|r|..];
    assert PaddedAt(s, r, i);
  }

  /** Trimming twice is trimming once. */
  lemma TrimIdempotent(s: string)
    ensures Trim(Trim(s)) == Trim(s)
  {
    var t := Trim(s);
    assert TrimLeft(t) == t;
    assert TrimRight(t) == t;
  }

  // ---------------------------------------------------------------------
  // dirname / basename (Unix: only `/` separates)
  // ---------------------------------------------------------------------

  function StripTrailing(s: string, c: char): (r: string)
    ensures r <= s
    ensures forall i :: |r| <= i < |s| ==> s[i] == c
    ensures r == [] || r[|r| - 1] != c
    decreases |s|
  {
    if |s| > 0 && s[|s| - 1] == c then StripTrailing(s[..|s| - 1], c) else s
  }

  function StripTrailingOthers(s: string, c: char): (r: string)
    ensures r <= s
    ensures forall i :: |r| <= i < |s| ==> s[i] != c
    ensures r == [] || r[|r| - 1] == c
    decreases |s|
  {
    if |s| > 0 && s[|s| - 1] != c then StripTrailingOthers(s[..|s| - 1], c) else s
  }

  /** `dirname`: strip trailing slashes, then the last name, then the slashes
      before it; `''` stays `''`, a path of slashes gives `/`, a path with no
      slash gives `.`. */
  function Dirname(p: string): (r: string)
    ensures r == [] <==> p == []
    ensures r != "." ==> r <= p
    ensures r == "/" || r == [] || r[|r| - 1] != '/'
    ensures StripTrailing(p, '/') != [] && '/' !in StripTrailing(p, '/') ==> r == "."
  {
    if p == [] then []
    else
      var a := StripTrailing(p, '/');
      if a == [] then
        assert p[0] == '/';
        "/"
      else
        var b := StripTrailingOthers(a, '/');
        if b == [] then
          assert forall i :: 0 <= i < |a| ==> a[i] != '/';
          "."
        else
          assert '/' in a by { assert a[|b| - 1] == '/'; }
          var d := StripTrailing(b, '/');
          if d == [] then
            assert p[0] == b[0] == '/';
            "/"
          else d
  }

  function AfterLastSlash(a: string): (r: string)
    ensures '/' !in r
    ensures |r| <= |a| && r == a[|a| - |r|..]
    ensures r == a || a[|a| - |r| - 1] == '/'
    decreases |a|
  {
    if |a| == 0 || a[|a| - 1] == '/' then []
    else
      var r := AfterLastSlash(a[..|a| - 1]) + [a[|a| - 1]];
      assert a[..|a| - 1][|a| - |r|..] + [a[|a| - 1]] == a[|a| - |r|..];
      r
  }

  /** `basename`: the last `/`-separated name once trailing slashes are gone. */
  function Basename(p: string): (r: string)
    ensures '/' !in r
    ensures |r| <= |StripTrailing(p, '/')|
  {
    AfterLastSlash(StripTrailing(p, '/'))
  }

  /** Once trailing slashes are stripped, the base name ends what is left
      and is preceded by a slash unless it is all that is left. */
  lemma BasenameIsLastName(p: string)
    ensures var a := StripTrailing(p, '/'); a <= p && OnlyForwardSlashes(p[|a|..])
    ensures var b := Basename(p); var a := StripTrailing(p, '/');
      |b| <= |a| && b == a[|a| - |b|..] && (b == a || a[|a| - |b| - 1] == '/')
  {
    var a := StripTrailing(p, '/');
    assert Basename(p) == AfterLastSlash(a);
  }

  predicate OnlyForwardSlashes(s: string) {
    forall i :: 0 <= i < |s| ==> s[i] == '/'
  }

  /** Cutting after the last slash and taking what follows the last slash
      split the same string at the same place. */
  lemma {:induction false} LastSlashSplit(a: string)
    ensures |StripTrailingOthers(a, '/')| + |AfterLastSlash(a)| == |a|
    decreases |a|
  {
    if |a| > 0 && a[|a| - 1] != '/' {
      LastSlashSplit(a[..|a| - 1]);
    }
  }

  /** The branches of `dirname`, one per shape of the path: `a` is the path
      without trailing slashes, `x` is `a` cut just after its last slash, and
      `d` is `x` without its trailing slashes. */
  lemma DirnameBranches(p: string)
    ensures var a := StripTrailing(p, '/'); var x := StripTrailingOthers(a, '/'); var d := StripTrailing(x, '/');
      && (p != [] && a == [] ==> Dirname(p) == "/")
      && (a != [] && x == [] ==> Dirname(p) == ".")
      && (x != [] && d == [] ==> Dirname(p) == "/")
      && (x != [] && d != [] ==> Dirname(p) == d)
  {
  }

  /** A string holds a slash exactly when cutting it after its last slash
      leaves something. */
  lemma SlashInIff(a: string)
    ensures '/' in a <==> StripTrailingOthers(a, '/') != []
  {
    var x := StripTrailingOthers(a, '/');
    if x != [] {
      assert a[|x| - 1] == '/';
    }
  }

  /** Stripping trailing slashes leaves nothing exactly for a string of
      slashes. */
  lemma StripAllIff(x: string)
    ensures StripTrailing(x, '/') == [] <==> OnlyForwardSlashes(x)
  {
    var d := StripTrailing(x, '/');
    if d != [] {
      assert x[|d| - 1] == d[|d| - 1];
    }
  }

  /** Cut after its last slash, the stripped path is what precedes the base
      name. */
  lemma BeforeBase(p: string)
    ensures var a := StripTrailing(p, '/'); var b := Basename(p);
      |b| <= |a| && StripTrailingOthers(a, '/') == a[..|a| - |b|]
  {
    var a := StripTrailing(p, '/');
    LastSlashSplit(a);
    assert Basename(p) == AfterLastSlash(a);
  }

  /** `dirname` is `/` exactly for a non-empty path that is all slashes, or
      one whose part before the base name holds a slash and nothing else. */
  lemma DirnameRoot(p: string)
    ensures var q := StripTrailing(p, '/'); var b := Basename(p);
      Dirname(p) == "/" <==> p != [] && (q == [] || ('/' in q && OnlyForwardSlashes(q[..|q| - |b|])))
  {
    var a := StripTrailing(p, '/');
    var x := StripTrailingOthers(a, '/');
    DirnameBranches(p);
    BeforeBase(p);
    SlashInIff(a);
    StripAllIff(x);
  }

  /** Whenever the part of the path before the base name is not just
      slashes, `dirname` drops the last name: the path is the parent (a
      non-empty prefix not ending in a slash), then one or more slashes, then
      the base name, then only slashes. */
  lemma DirnameDropsLastName(p: string)
    requires var q := StripTrailing(p, '/'); '/' in q && !OnlyForwardSlashes(q[..|q| - |Basename(p)|])
    ensures var r := Dirname(p); var b := Basename(p); var a := StripTrailing(p, '/');
      && r != [] && r <= p && r[|r| - 1] != '/'
      && |r| < |a| - |b|
      && OnlyForwardSlashes(p[|r|..|a| - |b|])
      && p[|a| - |b|..|a|] == b
      && OnlyForwardSlashes(p[|a|..])
  {
    var a := StripTrailing(p, '/');
    var x := StripTrailingOthers(a, '/');
    var b := Basename(p);
    var d := StripTrailing(x, '/');
    DirnameBranches(p);
    BeforeBase(p);
    BasenameIsLastName(p);
    SlashInIff(a);
    StripAllIff(x);
    assert x != [] && d != [];
    ParentSplit(p, a, x, d, b);
  }

  /** A relative parent: `dirname( './x' )` is `.` although the path holds a
      slash. */
  lemma DirnameOfDotSlash()
    ensures Dirname("./x") == "."
  {
    assert StripTrailing("./x", '/') == "./x";
    assert StripTrailingOthers("./x", '/') == "./";
    assert StripTrailing("./", '/') == ".";
  }

  /** The index arithmetic behind `DirnameDropsLastName`: `p` is `a` then
      slashes, `a` is `x` then `b`, `x` ends in a slash, and `d` is `x`
      without its trailing slashes. */
  lemma ParentSplit(p: string, a: string, x: string, d: string, b: string)
    requires a <= p && x <= a && d <= x
    requires |x| + |b| == |a| && b == a[|a| - |b|..]
    requires x != [] && x[|x| - 1] == '/' && d != [] && d[|d| - 1] != '/'
    requires forall i :: |d| <= i < |x| ==> x[i] == '/'
    requires forall i :: |a| <= i < |p| ==> p[i] == '/'
    ensures d <= p
    ensures && |d| < |a| - |b|
            && OnlyForwardSlashes(p[|d|..|a| - |b|])
            && p[|a| - |b|..|a|] == b
            && OnlyForwardSlashes(p[|a|..])
  {
    assert p[..|d|] == d;
    assert p[|d|..|x|] == x[|d|..];
    assert p[|x|..|a|] == a[|x|..];
  }
}

=== FILE: plugin.dfy ===
/** The application object shared by both App variants (`app/class-app.php`
    and `includes/class-app.php`, whose constructor, `header`, `url`,
    `autoload_dir` and `autoload_class_file` are the same): its state, its
    validated construction, and the naming convention both resolvers use. */
module Plugin {
  import opened Wrappers
  import opened PhpStrings

  /** A PHP argument that should be a string: a string, or anything else
      (null, false, an array, an object). */
  datatype Value = Str(str: string) | NonString

  /** What WordPress reports about the plugin file (`plugin_basename`,
      `plugin_dir_url`, `plugin_dir_path`, `WP_DEBUG`, `get_file_data`);
      these calls are outside the model and their results are inputs. */
  datatype HostInfo = HostInfo(
    basename: string,
    url: string,
    path: string,
    wpDebug: bool,
    headers: map<string, string>)

  /** A constructed App. */
  datatype App = App(
    pluginFile: string,
    basename: string,
    url: string,
    path: string,
    wpDebug: bool,
    headers: map<string, string>)

  datatype ConstructError = InvalidPluginFile(pluginFile: string)

  /** The outcome of one autoloader call: the single file it loads, nothing,
      or an exception escaping the autoloader. */
  datatype Load = Loaded(file: string) | NothingLoaded | Threw(reason: string)

  /** `__construct( $plugin_file )`: rejects an empty (`''` or `'0'`) or
      unresolvable plugin file before any field is set; otherwise every field
      comes from the plugin file and what the host reports about it. */
  function Construct(pluginFile: string, resolvable: set<string>, host: HostInfo): (r: Result<App, ConstructError>)
    ensures r.Failure? <==> PhpEmpty(pluginFile) || pluginFile !in resolvable
    ensures r.Failure? ==> r.error == InvalidPluginFile(pluginFile)
    ensures r.Success? ==> r.value.pluginFile == pluginFile && r.value.basename == host.basename
    ensures r.Success? ==> r.value.url == host.url && r.value.path == host.path
    ensures r.Success? ==> r.value.wpDebug == host.wpDebug && r.value.headers == host.headers
  {
    if PhpEmpty(pluginFile) || pluginFile !in resolvable then
      Failure(InvalidPluginFile(pluginFile))
    else
      Success(App(pluginFile, host.basename, host.url, host.path, host.wpDebug, host.headers))
  }

  /** A constructed App's plugin file is a real, non-empty path. */
  lemma ConstructedFileValid(pluginFile: string, resolvable: set<string>, host: HostInfo)
    requires Construct(pluginFile, resolvable, host).Success?
    ensures pluginFile != "" && pluginFile != "0" && pluginFile in resolvable
  {
  }

  /** `header( $h )`: the trimmed value of a known header, `''` otherwise. */
  function Header(app: App, h: string): (r: string)
    ensures h !in app.headers ==> r == ""
    ensures h in app.headers ==> IsPaddedBy(app.headers[h], r)
    ensures r == [] || (!IsTrimmable(r[0]) && !IsTrimmable(r[|r| - 1]))
  {
    if h in app.headers then TrimPadded(app.headers[h]); Trim(app.headers[h]) else ""
  }

  /** A header value needs no further trimming. */
  lemma HeaderIsTrimmed(app: App, h: string)
    ensures Trim(Header(app, h)) == Header(app, h)
  {
    if h in app.headers {
      TrimIdempotent(app.headers[h]);
    }
  }

  /** `url( $path )`: the plugin URL with exactly one trailing slash, followed
      by `path` when it is a non-empty string (`'0'` counts as empty). */
  function Url(app: App, path: Value): (r: string)
    ensures TrailingSlashIt(app.url) <= r
    ensures r[|TrailingSlashIt(app.url)|..] == (if path.Str? && !PhpEmpty(path.str) then path.str else "")
  {
    var base := TrailingSlashIt(app.url);
    if path.Str? && !PhpEmpty(path.str) then
      assert (base + path.str)[|base|..] == path.str;
      base + path.str
    else base
  }

  /** The URL of a sub-path does not depend on whether the stored URL already
      ends in a slash. */
  lemma UrlSlashInsensitive(app: App, path: Value)
    ensures Url(app, path) == Url(app.(url := TrailingSlashIt(app.url)), path)
  {
    TrailingSlashItIdempotent(app.url);
  }

  /** `dirname( $this->plugin_file )`. */
  function PluginDir(app: App): string {
    Dirname(app.pluginFile)
  }

  /** `autoload_dir( $dir )`: the plugin path and `dir`, each with exactly
      one trailing slash. */
  function AutoloadDir(path: string, dir: string): (r: string)
    ensures TrailingSlashIt(path) <= r
    ensures r[|TrailingSlashIt(path)|..] == TrailingSlashIt(dir)
    ensures r[|r| - 1] == '/'
  {
    TrailingSlashIt(path) + TrailingSlashIt(dir)
  }

  /** The position of the first element of `xs` that `ok` accepts: the
      "try each candidate in priority order" loop every lookup here uses. */
  function FirstWhere<T>(xs: seq<T>, ok: T -> bool): (r: Option<nat>)
    ensures r.Some? ==> r.value < |xs| && ok(xs[r.value])
    ensures r.Some? ==> forall j :: 0 <= j < r.value ==> !ok(xs[j])
    ensures r.None? <==> forall j :: 0 <= j < |xs| ==> !ok(xs[j])
    decreases |xs|
  {
    if |xs| == 0 then None
    else if ok(xs[0]) then Some(0)
    else match FirstWhere(xs[1..], ok)
      case Some(k) =>
        assert forall j :: 1 <= j <= k ==> xs[j] == xs[1..][j - 1];
        Some(k + 1)
      case None =>
        assert forall j :: 1 <= j < |xs| ==> xs[j] == xs[1..][j - 1];
        None
  }

  /** `autoload_class_file( $parts )`. */
  function ClassFile(parts: seq<string>): (r: string)
    requires |parts| >= 1
    ensures |r| == |parts[|parts| - 1]| + 10
    ensures r[..6] == "class-" && r[|r| - 4..] == ".php"
  {
    "class-" + Slug(parts[|parts| - 1]) + ".php"
  }

  /** The canonical file name is `class-`, then the last segment lower-cased
      with `_` turned into `-`, then `.php`; it holds no `_` and no ASCII
      upper-case letter. */
  lemma ClassFileShape(parts: seq<string>)
    requires |parts| >= 1
    ensures var r := ClassFile(parts); var last := parts[|parts| - 1];
      && |r| == |last| + 10
      && r[..6] == "class-" && r[|r| - 4..] == ".php"
      && (forall i :: 0 <= i < |last| ==> r[6 + i] == SlugChar(last[i]))
      && '_' !in r
      && NoUpper(r)
  {
    var last := parts[|parts| - 1];
    var slug := Slug(last);
    var r := ClassFile(parts);
    assert r == "class-" + slug + ".php";
    forall i | 0 <= i < |r|
      ensures r[i] != '_' && !IsUpper(r[i])
    {
      if 6 <= i < |r| - 4 {
        assert r[i] == slug[i - 6];
      }
    }
  }

  /** Class names whose last segments agree up to ASCII case and `_` versus
      `-` map to the same file. */
  lemma ClassFileFolds(front: seq<string>, a: string, otherFront: seq<string>, b: string)
    requires |a| == |b|
    requires forall i :: 0 <= i < |a| ==> SlugChar(a[i]) == SlugChar(b[i])
    ensures ClassFile(front + [a]) == ClassFile(otherFront + [b])
  {
    assert (front + [a])[|front|] == a;
    assert (otherFront + [b])[|otherFront|] == b;
    assert Slug(a) == Slug(b);
  }
}

=== FILE: removal.dfy ===
/** PHP's `str_replace( $pattern, '', $subject )` for a non-empty pattern: the
    subject is scanned left to right and every occurrence that does not
    overlap an earlier removed one is deleted.

    `RemoveAll` is the scan itself; `LeftmostSplit` is an independent
    description of its result (the subject cut into gaps around the removed
    occurrences), and `RemoveAllIsGapConcat` / `GapsSplit` tie the two
    together. */
module Removal {
  import opened PhpStrings

  // ---------------------------------------------------------------------
  // The scan
  // ---------------------------------------------------------------------

  /** Number of occurrences the left-to-right scan removes. */
  function Count(pat: string, s: string): nat
    requires |pat| > 0
    decreases |s|
  {
    if |s| < |pat| then 0
    else if s[..|pat|] == pat then 1 + Count(pat, s[|pat|..])
    else Count(pat, s[1..])
  }

  /** `str_replace( $pat, '', $s )`. Each removed occurrence shortens the
      subject by exactly the pattern's length. */
  function RemoveAll(pat: string, s: string): (r: string)
    requires |pat| > 0
    ensures |r| == |s| - Count(pat, s) * |pat|
    decreases |s|
  {
    if |s| < |pat| then s
    else if s[..|pat|] == pat then
      var rest := RemoveAll(pat, s[|pat|..]);
      assert |rest| == |s| - |pat| - Count(pat, s[|pat|..]) * |pat|;
      assert (1 + Count(pat, s[|pat|..])) * |pat| == |pat| + Count(pat, s[|pat|..]) * |pat|;
      rest
    else [s[0]] + RemoveAll(pat, s[1..])
  }

  // ---------------------------------------------------------------------
  // No occurrence, no change
  // ---------------------------------------------------------------------

  lemma OccursShift(pat: string, s: string, j: nat)
    requires |s| > 0
    ensures OccursAt(s[1..], pat, j) <==> OccursAt(s, pat, j + 1)
  {
    if j + 1 + |pat| <= |s| {
      assert s[1..][j..j + |pat|] == s[j + 1..j + 1 + |pat|];
    }
  }

  /** The scan removes nothing exactly when the pattern does not occur. */
  lemma {:induction false} CountZeroIff(pat: string, s: string)
    requires |pat| > 0
    ensures Count(pat, s) == 0 <==> !Contains(s, pat)
    decreases |s|
  {
    if |s| < |pat| {
      assert forall j: nat :: !OccursAt(s, pat, j);
    } else if s[..|pat|] == pat {
      assert OccursAt(s, pat, 0);
    } else {
      CountZeroIff(pat, s[1..]);
      if Contains(s, pat) {
        var j: nat :| OccursAt(s, pat, j);
        assert j > 0;
        OccursShift(pat, s, j - 1);
        assert OccursAt(s[1..], pat, j - 1);
      } else {
        forall j: nat | OccursAt(s[1..], pat, j)
          ensures false
        {
          OccursShift(pat, s, j);
        }
      }
    }
  }

  /** A subject in which the pattern does not occur comes back unchanged, and
      only such a subject does. */
  lemma RemoveAllFixedIff(pat: string, s: string)
    requires |pat| > 0
    ensures RemoveAll(pat, s) == s <==> !Contains(s, pat)
  {
    CountZeroIff(pat, s);
    if Count(pat, s) > 0 {
      assert Count(pat, s) * |pat| >= |pat|;
    } else {
      SkipClean(pat, s, |s|);
      assert s[..|s|] == s;
    }
  }

  // ---------------------------------------------------------------------
  // The gaps between removed occurrences
  // ---------------------------------------------------------------------

  /** `gaps[0] + pat + gaps[1] + pat + ... + gaps[k]`. */
  function Glue(pat: string, gaps: seq<string>): string
    requires |gaps| >= 1
    decreases |gaps|
  {
    if |gaps| == 1 then gaps[0] else gaps[0] + pat + Glue(pat, gaps[1..])
  }

  /** `gaps[0] + gaps[1] + ... + gaps[k]`. */
  function Concat(gaps: seq<string>): string
    decreases |gaps|
  {
    if |gaps| == 0 then [] else gaps[0] + Concat(gaps[1..])
  }

  /** No occurrence of `pat` in `s` starts before position `n`. */
  ghost predicate NoMatchBefore(pat: string, s: string, n: nat) {
    forall j: nat :: j < n ==> !OccursAt(s, pat, j)
  }

  /** No occurrence of `pat` starts inside `g` when `g` is followed by `pat`. */
  ghost predicate InnerGapClean(pat: string, g: string) {
    NoMatchBefore(pat, g + pat, |g|)
  }

  /** Every gap followed by a glued pattern is clean, and the pattern does
      not occur in the last gap at all. */
  ghost predicate GapsClean(pat: string, gaps: seq<string>)
    requires |gaps| >= 1
  {
    && (forall i :: 0 <= i < |gaps| - 1 ==> InnerGapClean(pat, gaps[i]))
    && !Contains(gaps[|gaps| - 1], pat)
  }

  /** `gaps` cuts `s` at leftmost non-overlapping occurrences of `pat`: `s` is
      the gaps glued with `pat`; no occurrence starts inside a gap that is
      followed by a glued pattern; and the last gap has no occurrence at all. */
  ghost predicate LeftmostSplit(pat: string, s: string, gaps: seq<string>) {
    && |gaps| >= 1
    && Glue(pat, gaps) == s
    && GapsClean(pat, gaps)
  }

  /** A prefix in which no occurrence starts is copied through unchanged. */
  lemma {:induction false} SkipClean(pat: string, s: string, n: nat)
    requires |pat| > 0
    requires n <= |s|
    requires NoMatchBefore(pat, s, n)
    ensures RemoveAll(pat, s) == s[..n] + RemoveAll(pat, s[n..])
    ensures Count(pat, s) == Count(pat, s[n..])
    decreases n
  {
    if n == 0 {
      assert s[..0] + RemoveAll(pat, s[0..]) == RemoveAll(pat, s);
    } else if |s| < |pat| {
      assert s[..n] + s[n..] == s;
    } else {
      assert !OccursAt(s, pat, 0);
      assert s[0..|pat|] == s[..|pat|];
      var t := s[1..];
      forall j: nat | j < n - 1
        ensures !OccursAt(t, pat, j)
      {
        OccursShift(pat, s, j);
      }
      SkipClean(pat, t, n - 1);
      assert t[n - 1..] == s[n..];
      assert RemoveAll(pat, s) == [s[0]] + RemoveAll(pat, t);
      ConsPrefix(s, n, RemoveAll(pat, s[n..]));
    }
  }

  /** Putting the first character back in front of a prefix of the tail. */
  lemma ConsPrefix(s: string, n: nat, x: string)
    requires 0 < n <= |s|
    ensures [s[0]] + (s[1..][..n - 1] + x) == s[..n] + x
  {
    assert [s[0]] + s[1..][..n - 1] == s[..n];
  }

  /** A window that ends inside `a` reads the same in `a + b`. */
  lemma OccursPrefix(pat: string, a: string, b: string, j: nat)
    requires j + |pat| <= |a|
    ensures OccursAt(a + b, pat, j) <==> OccursAt(a, pat, j)
  {
    assert (a + b)[j..j + |pat|] == a[j..j + |pat|];
  }

  /** Any leftmost split determines the scan: the result is the gaps in order
      and the number of removals is the number of cuts. */
  lemma {:induction false} RemoveAllIsGapConcat(pat: string, s: string, gaps: seq<string>)
    requires |pat| > 0
    requires LeftmostSplit(pat, s, gaps)
    ensures RemoveAll(pat, s) == Concat(gaps)
    ensures Count(pat, s) == |gaps| - 1
    decreases |gaps|
  {
    if |gaps| == 1 {
      CountZeroIff(pat, s);
      RemoveAllFixedIff(pat, s);
      assert Concat(gaps) == gaps[0] + Concat([]);
    } else {
      var rest := Glue(pat, gaps[1..]);
      var tail := gaps[1..];
      assert s == gaps[0] + pat + rest;
      assert InnerGapClean(pat, gaps[0]);
      RemoveFirstGap(pat, gaps[0], rest);
      assert forall i :: 0 <= i < |tail| - 1 ==> tail[i] == gaps[i + 1];
      assert LeftmostSplit(pat, rest, tail);
      RemoveAllIsGapConcat(pat, rest, tail);
    }
  }

  /** A clean gap followed by an occurrence is kept, and the occurrence is
      removed. */
  lemma RemoveFirstGap(pat: string, g0: string, rest: string)
    requires |pat| > 0
    requires InnerGapClean(pat, g0)
    ensures RemoveAll(pat, g0 + pat + rest) == g0 + RemoveAll(pat, rest)
    ensures Count(pat, g0 + pat + rest) == 1 + Count(pat, rest)
  {
    var s := g0 + pat + rest;
    CleanGapPrefix(pat, g0, rest);
    SkipClean(pat, s, |g0|);
    var t := s[|g0|..];
    assert t == pat + rest;
    assert t[..|pat|] == pat;
    assert t[|pat|..] == rest;
    assert s[..|g0|] == g0;
  }

  /** No occurrence starts inside a clean gap, whatever follows the
      occurrence after it. */
  lemma CleanGapPrefix(pat: string, g0: string, rest: string)
    requires InnerGapClean(pat, g0)
    ensures NoMatchBefore(pat, g0 + pat + rest, |g0|)
  {
    var s := g0 + pat + rest;
    assert s == (g0 + pat) + rest;
    forall j: nat | j < |g0|
      ensures !OccursAt(s, pat, j)
    {
      assert !OccursAt(g0 + pat, pat, j);
      OccursPrefix(pat, g0 + pat, rest, j);
    }
  }

  /** The gaps the scan leaves behind. */
  function Gaps(pat: string, s: string): (gaps: seq<string>)
    requires |pat| > 0
    ensures |gaps| >= 1
    decreases |s|
  {
    if |s| < |pat| then [s]
    else if s[..|pat|] == pat then [""] + Gaps(pat, s[|pat|..])
    else
      var g := Gaps(pat, s[1..]);
      [[s[0]] + g[0]] + g[1..]
  }

  /** Every subject has a leftmost split, namely `Gaps`. */
  lemma {:induction false} GapsSplit(pat: string, s: string)
    requires |pat| > 0
    ensures LeftmostSplit(pat, s, Gaps(pat, s))
    decreases |s|
  {
    if |s| < |pat| {
      assert Gaps(pat, s) == [s];
      assert forall j: nat :: !OccursAt(s, pat, j);
    } else if s[..|pat|] == pat {
      var t := s[|pat|..];
      assert Gaps(pat, s) == [""] + Gaps(pat, t);
      GapsSplit(pat, t);
      assert s == pat + t;
      SplitAfterMatch(pat, t, Gaps(pat, t));
    } else {
      var t := s[1..];
      var g := Gaps(pat, t);
      assert Gaps(pat, s) == [[s[0]] + g[0]] + g[1..];
      GapsSplit(pat, t);
      assert s == [s[0]] + t;
      assert !OccursAt(s, pat, 0);
      SplitAfterChar(pat, s[0], t, g);
    }
  }

  /** A leading occurrence adds an empty first gap. */
  lemma SplitAfterMatch(pat: string, t: string, g: seq<string>)
    requires LeftmostSplit(pat, t, g)
    ensures LeftmostSplit(pat, pat + t, [""] + g)
  {
    var gaps := [""] + g;
    assert gaps[1..] == g;
    assert Glue(pat, gaps) == "" + pat + Glue(pat, g);
    assert "" + pat + t == pat + t;
    assert InnerGapClean(pat, "");
    forall i | 1 <= i < |gaps| - 1
      ensures InnerGapClean(pat, gaps[i])
    {
      assert gaps[i] == g[i - 1];
    }
    assert gaps[|gaps| - 1] == g[|g| - 1];
  }

  /** A leading character at which no occurrence starts joins the first gap. */
  lemma SplitAfterChar(pat: string, c: char, t: string, g: seq<string>)
    requires |pat| > 0
    requires LeftmostSplit(pat, t, g)
    requires !OccursAt([c] + t, pat, 0)
    ensures LeftmostSplit(pat, [c] + t, [[c] + g[0]] + g[1..])
  {
    var s := [c] + t;
    var h := [c] + g[0];
    var gaps := [h] + g[1..];
    if |g| == 1 {
      assert gaps == [s];
      forall j: nat | OccursAt(s, pat, j)
        ensures false
      {
        assert j > 0;
        OccursShift(pat, s, j - 1);
      }
    } else {
      var more := Glue(pat, g[1..]);
      assert gaps[1..] == g[1..];
      assert Glue(pat, g) == g[0] + pat + more;
      assert Glue(pat, gaps) == h + pat + more;
      assert s == h + pat + more;
      GapHeadClean(pat, s, g[0], more);
      forall i | 1 <= i < |gaps| - 1
        ensures InnerGapClean(pat, gaps[i])
      {
        assert gaps[i] == g[i];
      }
      assert gaps[|gaps| - 1] == g[|g| - 1];
    }
  }

  /** Prepending a character at which no occurrence starts keeps a gap clean. */
  lemma GapHeadClean(pat: string, s: string, g0: string, more: string)
    requires |pat| > 0 && |s| > 0
    requires s == [s[0]] + g0 + pat + more
    requires !OccursAt(s, pat, 0)
    requires InnerGapClean(pat, g0)
    ensures InnerGapClean(pat, [s[0]] + g0)
  {
    var h := [s[0]] + g0;
    var w := h + pat;
    assert s == w + more;
    assert w[1..] == g0 + pat;
    forall j: nat | j < |h|
      ensures !OccursAt(w, pat, j)
    {
      if j == 0 {
        OccursPrefix(pat, w, more, 0);
      } else {
        OccursShift(pat, w, j - 1);
      }
    }
  }
}

=== FILE: replace_cli.dfy ===
/** The `kickstart` command's line removal (`services/replace-cli`): every
    file of the plugin tree that belongs to the plugin, has a wanted
    extension and whose path does not contain `vendor/`, ignoring case, is
    rewritten with each configured
    line, followed by its newline, removed wherever it occurs. */
module ReplaceCli {
  import opened Wrappers
  import opened PhpStrings
  import opened Plugin
  import opened Removal
  import AppLoader

  /** The indentation of the removed lines: two tab characters. */
  const Indent: string := "\t\t"

  /** The lines the command removes; a line is matched only together with
      the newline that ends it. */
  const LineRemovals: seq<string> := [
    Indent + "// An example service so you can see how things work, below cli command should remove this.",
    Indent + "$this->example_service = new Service\\Example_Service();"
  ]

  /** The extensions a file must mention to be rewritten. */
  const Extensions: seq<string> := [".php", ".md", ".js"]

  /** The directories whose files are never rewritten. */
  const IgnoreDirs: seq<string> := ["vendor"]

  /** The plugin tree the walk visits: each regular file with its content,
      and the directories. */
  datatype Tree = Tree(files: map<string, string>, dirs: set<string>)

  /** What `file_exists` accepts. */
  function Existing(tree: Tree): set<string> {
    tree.files.Keys + tree.dirs
  }

  // ---------------------------------------------------------------------
  // has_valid_extension and ignore
  // ---------------------------------------------------------------------

  /** The loop both tests share: some needle, tried in order, is a truthy
      `stristr` match in `file`. */
  function AnyTruthy(file: string, needles: seq<string>): bool
    decreases |needles|
  {
    |needles| > 0 && (Truthy(Stristr(file, needles[0])) || AnyTruthy(file, needles[1..]))
  }

  /** For needles other than `''` and `'0'`, the loop succeeds exactly when
      one of the needles occurs in `file`, ignoring ASCII case. */
  lemma {:induction false} AnyTruthyIff(file: string, needles: seq<string>)
    requires forall j :: 0 <= j < |needles| ==> !PhpEmpty(needles[j])
    ensures AnyTruthy(file, needles) <==> exists j :: 0 <= j < |needles| && ContainsCI(file, needles[j])
    decreases |needles|
  {
    if |needles| > 0 {
      StristrTruthy(file, needles[0]);
      AnyTruthyIff(file, needles[1..]);
      assert forall j :: 1 <= j < |needles| ==> needles[j] == needles[1..][j - 1];
      if !ContainsCI(file, needles[0]) && !AnyTruthy(file, needles[1..]) {
        forall j | 0 <= j < |needles|
          ensures !ContainsCI(file, needles[j])
        {
          if j > 0 {
            assert needles[j] == needles[1..][j - 1];
          }
        }
      }
    }
  }

  /** `has_valid_extension( $file )`. */
  function HasValidExtension(file: string): bool {
    AnyTruthy(file, Extensions)
  }

  /** A file has a valid extension exactly when one of the extensions occurs
      anywhere in its path, ignoring ASCII case; the test is a substring test,
      not a suffix test. */
  lemma HasValidExtensionIff(file: string)
    ensures HasValidExtension(file) <==>
      exists j :: 0 <= j < |Extensions| && ContainsCI(file, Extensions[j])
  {
    AnyTruthyIff(file, Extensions);
  }

  /** Each ignored directory with its trailing slash, as `ignore` tests it. */
  function IgnorePatterns(dirs: seq<string>): (r: seq<string>)
    ensures |r| == |dirs|
    ensures forall j :: 0 <= j < |dirs| ==> r[j] == TrailingSlashIt(dirs[j])
  {
    seq(|dirs|, j requires 0 <= j < |dirs| => TrailingSlashIt(dirs[j]))
  }

  /** `ignore( $file )`. */
  function Ignore(file: string): bool {
    AnyTruthy(file, IgnorePatterns(IgnoreDirs))
  }

  /** The configured ignore patterns. */
  lemma IgnorePatternsValue()
    ensures IgnorePatterns(IgnoreDirs) == ["vendor/"]
  {
    assert TrailingSlashIt("vendor") == "vendor/";
  }

  /** A file is ignored exactly when `vendor/` occurs anywhere in its path,
      ignoring ASCII case. */
  lemma IgnoreIff(file: string)
    ensures Ignore(file) <==> ContainsCI(file, "vendor/")
  {
    IgnorePatternsValue();
    AnyTruthyIff(file, ["vendor/"]);
  }

  /** The extension test accepts a `.json` file, since `.js` occurs in it. */
  lemma JsonHasValidExtension()
    ensures HasValidExtension("composer.json")
  {
    var f := "composer.json";
    var lf, ext := Lower(f), Lower(".js");
    assert ext[0] == '.' && ext[1] == 'j' && ext[2] == 's';
    assert lf[8] == '.' && lf[9] == 'j' && lf[10] == 's';
    assert lf[8..11] == ext;
    assert OccursAt(lf, ext, 8);
    HasValidExtensionIff(f);
  }

  /** A directory that merely ends in `vendor` is ignored too. */
  lemma NestedVendorIgnored()
    ensures Ignore("/p/myvendor/a.php")
  {
    var f := "/p/myvendor/a.php";
    assert Lower(f)[5..12] == Lower("vendor/");
    assert OccursAt(Lower(f), Lower("vendor/"), 5);
    IgnoreIff(f);
  }

  // ---------------------------------------------------------------------
  // The rewrite
  // ---------------------------------------------------------------------

  /** One file's rewrite: the `str_replace` of each rule, with its newline,
      by nothing, in the configured order. */
  function ApplyRules(rules: seq<string>, code: string): (r: string)
    ensures |r| <= |code|
    decreases |rules|
  {
    if |rules| == 0 then code
    else ApplyRules(rules[1..], RemoveAll(rules[0] + "\n", code))
  }

  /** A file is left as it is exactly when no rule line, with its newline,
      occurs in it. */
  lemma {:induction false} ApplyRulesFixedIff(rules: seq<string>, code: string)
    ensures ApplyRules(rules, code) == code <==>
      forall i :: 0 <= i < |rules| ==> !Contains(code, rules[i] + "\n")
    decreases |rules|
  {
    if |rules| > 0 {
      var pat := rules[0] + "\n";
      var next := RemoveAll(pat, code);
      RemoveAllFixedIff(pat, code);
      NoRuleCons(rules, code);
      if next == code {
        ApplyRulesFixedIff(rules[1..], code);
      } else {
        CountZeroIff(pat, code);
        assert |ApplyRules(rules, code)| <= |next| < |code|;
      }
    }
  }

  /** No rule occurs exactly when the first does not and no later one does. */
  lemma NoRuleCons(rules: seq<string>, code: string)
    requires |rules| > 0
    ensures (forall i :: 0 <= i < |rules| ==> !Contains(code, rules[i] + "\n")) <==>
      !Contains(code, rules[0] + "\n")
      && forall i :: 0 <= i < |rules[1..]| ==> !Contains(code, rules[1..][i] + "\n")
  {
    assert forall i :: 1 <= i < |rules| ==> rules[i] == rules[1..][i - 1];
  }

  /** A file shorter than every rule line with its newline is kept. */
  lemma ShortFileKept(rules: seq<string>, code: string)
    requires forall i :: 0 <= i < |rules| ==> |code| <= |rules[i]|
    ensures ApplyRules(rules, code) == code
  {
    ApplyRulesFixedIff(rules, code);
  }

  /** A rule line is removed only with its newline: a file that is just the
      second configured line, unterminated, is kept. */
  lemma UnterminatedLineKept()
    ensures ApplyRules(LineRemovals, LineRemovals[1]) == LineRemovals[1]
  {
    assert |LineRemovals[1]| <= |LineRemovals[0]|;
    ShortFileKept(LineRemovals, LineRemovals[1]);
  }

  /** A pattern right after a head in which the pattern's first character
      does not occur is removed, and the head is kept. */
  lemma RemoveAfterHead(pat: string, head: string)
    requires |pat| > 0
    requires forall j :: 0 <= j < |head| ==> head[j] != pat[0]
    ensures RemoveAll(pat, head + pat) == head
  {
    forall j: nat | j < |head|
      ensures !OccursAt(head + pat, pat, j)
    {
      assert (head + pat)[j] == head[j];
    }
    assert head + pat == head + pat + "";
    RemoveFirstGap(pat, head, "");
  }

  /** A head that is shorter than every later rule line and does not hold
      the first rule line's first character, followed by the first rule line
      and its newline, loses exactly that line. */
  lemma FirstRuleLineRemoved(rules: seq<string>, head: string)
    requires |rules| >= 1 && |rules[0]| > 0 && rules[0][0] !in head
    requires forall i :: 1 <= i < |rules| ==> |head| <= |rules[i]|
    ensures ApplyRules(rules, head + rules[0] + "\n") == head
  {
    var pat := rules[0] + "\n";
    assert pat[0] == rules[0][0];
    assert head + rules[0] + "\n" == head + pat;
    RemoveAfterHead(pat, head);
    ShortFileKept(rules[1..], head);
  }

  // ---------------------------------------------------------------------
  // remove_lines
  // ---------------------------------------------------------------------

  /** The walk's tests, in order: not a directory, one of the plugin's files,
      a valid extension, not ignored. */
  predicate Eligible(app: App, tree: Tree, file: string) {
    && file !in tree.dirs
    && AppLoader.IsOurFile(app, Existing(tree), Str(file))
    && HasValidExtension(file)
    && !Ignore(file)
  }

  /** Eligibility in plain terms, for a plugin whose directory is not `''`
      or `'0'`: a regular file of the tree whose path contains the plugin
      directory and an extension, and not `vendor/`, all ignoring ASCII
      case. */
  lemma EligibleIff(app: App, tree: Tree, file: string)
    requires !PhpEmpty(PluginDir(app))
    ensures Eligible(app, tree, file) <==>
      && file in tree.files && file !in tree.dirs
      && ContainsCI(file, PluginDir(app))
      && (exists j :: 0 <= j < |Extensions| && ContainsCI(file, Extensions[j]))
      && !ContainsCI(file, "vendor/")
  {
    AppLoader.IsOurFileIff(app, Existing(tree), Str(file));
    HasValidExtensionIff(file);
    IgnoreIff(file);
  }

  /** `n` successive rewrites of one file. */
  function Repeat(rules: seq<string>, code: string, n: nat): (r: string)
    ensures |r| <= |code|
  {
    if n == 0 then code else ApplyRules(rules, Repeat(rules, code, n - 1))
  }

  /** The number of times `file` occurs in the walk. */
  function Visits(walk: seq<string>, file: string): nat {
    multiset(walk)[file]
  }

  /** The loop of `remove_lines`, for any test `ok` that only accepts files
      of `files`: each accepted file is rewritten once per visit, reading
      what the previous visit wrote. */
  method RewriteWalk(files0: map<string, string>, walk: seq<string>, ok: string -> bool, rules: seq<string>)
    returns (files: map<string, string>)
    requires forall p :: ok(p) ==> p in files0
    ensures files.Keys == files0.Keys
    ensures forall p :: p in files0 ==>
      files[p] == Repeat(rules, files0[p], if ok(p) then Visits(walk, p) else 0)
  {
    files := files0;
    var i := 0;
    while i < |walk|
      invariant 0 <= i <= |walk|
      invariant WalkedUpTo(files0, walk, i, ok, rules, files)
    {
      var file := walk[i];
      var before := files;
      if ok(file) {
        files := files[file := ApplyRules(rules, files[file])];
      }
      WalkStep(files0, walk, i, ok, rules, before, files);
      i := i + 1;
    }
    assert walk[..|walk|] == walk;
  }

  /** The files after the first `i` visits. */
  ghost predicate WalkedUpTo(files0: map<string, string>, walk: seq<string>, i: nat, ok: string -> bool,
                             rules: seq<string>, files: map<string, string>)
    requires i <= |walk|
  {
    && files.Keys == files0.Keys
    && forall p :: p in files0 ==>
         files[p] == Repeat(rules, files0[p], if ok(p) then Visits(walk[..i], p) else 0)
  }

  /** One visit of the walk keeps the loop's account. */
  lemma WalkStep(files0: map<string, string>, walk: seq<string>, i: nat, ok: string -> bool,
                 rules: seq<string>, before: map<string, string>, files: map<string, string>)
    requires i < |walk| && WalkedUpTo(files0, walk, i, ok, rules, before)
    requires ok(walk[i]) ==> walk[i] in before
    requires files == if ok(walk[i]) then before[walk[i] := ApplyRules(rules, before[walk[i]])] else before
    ensures WalkedUpTo(files0, walk, i + 1, ok, rules, files)
  {
    var file := walk[i];
    assert walk[..i + 1] == walk[..i] + [file];
    assert multiset(walk[..i + 1]) == multiset(walk[..i]) + multiset{file};
    forall p | p in files0
      ensures files[p] == Repeat(rules, files0[p], if ok(p) then Visits(walk[..i + 1], p) else 0)
    {
      if p == file {
        assert Visits(walk[..i + 1], p) == Visits(walk[..i], p) + 1;
        if ok(p) {
          assert files[p] == ApplyRules(rules, before[p]);
        }
      } else {
        assert Visits(walk[..i + 1], p) == Visits(walk[..i], p);
        assert files[p] == before[p];
      }
    }
  }

  /** `remove_lines()`: the content of every file after the walk. Each
      eligible file is rewritten once per visit; every other file, and every
      file the walk does not reach, keeps its content; no file appears or
      disappears. */
  method RemoveLines(app: App, tree: Tree, walk: seq<string>) returns (files: map<string, string>)
    ensures files.Keys == tree.files.Keys
    ensures forall p :: p in tree.files && !Eligible(app, tree, p) ==> files[p] == tree.files[p]
    ensures forall p :: p in tree.files && p !in walk ==> files[p] == tree.files[p]
    ensures forall p :: p in tree.files && Eligible(app, tree, p) ==>
      files[p] == Repeat(LineRemovals, tree.files[p], Visits(walk, p))
  {
    var ok := p => Eligible(app, tree, p);
    forall p | ok(p)
      ensures p in tree.files
    {
      assert p in Existing(tree);
    }
    files := RewriteWalk(tree.files, walk, ok, LineRemovals);
  }

  /** A file outside the plugin's directory is never rewritten. */
  lemma ForeignFileUntouched(app: App, tree: Tree, file: string)
    requires !PhpEmpty(PluginDir(app))
    requires !ContainsCI(file, PluginDir(app))
    ensures !Eligible(app, tree, file)
  {
    EligibleIff(app, tree, file);
  }
}

=== FILE: wrappers.dfy ===
/** The wrappers used throughout the model: `Option` for PHP's "a value or
    null/false", `Result` for "a value or a thrown exception". */
module Wrappers {

  datatype Option<+T> = None | Some(value: T)

  datatype Result<+R, +E> = Success(value: R) | Failure(error: E)
}
